=== FILE: README.md ===
# Gwent deck service: catalog, deck builder, top-up and admin guard

This Dafny project models the core of a card-game web service: an Express/Mongoose backend for a Gwent-style game. It covers four parts:

- **Card catalog.** Admins maintain abilities, factions, card types, leaders, power-ups and cards. The `tambah*`, `update*` and `delete*` handlers of `src/controllers/cardController.js` check names and resolve references to ids.
- **Deck builder.** Players build decks from card names and a leader name. The `createDecks`, `updateDecks` and `deleteDecks` handlers of `src/controllers/userController.js` resolve the names. They enforce "one main faction plus Neutral" and "leader from the deck's faction".
- **Top-up.** The `topup` handler converts money into play balance at 5000 per unit and records each top-up in a history.
- **Request schemas and guard.** The Joi request schemas are modelled as lists of violated rules with their messages, and the `cekAdmin` middleware as a decision function.

Each Mongo collection is a `Table<D>`: a sequence of `Entry(id, name, data)` records in insertion order. The queries map as follows:

- `findOne` is the first match (`Store.FindByName`, `Store.FindById`).
- `find({name: {$in: names}})` is the order-preserving filter `Store.MatchNames`.
- `create` appends a record with a fresh id (`Store.Insert`).
- `deleteOne` removes by id (`Store.Remove`).

A handler is a pure function from the state and the request to the new state plus a `Reply`, which is either `Accepted(status, payload)` or `Rejected(reason)`. `Common.StatusOf` gives the status of each reason.

Modules:

- `Common` holds the shared vocabulary.
- `Store` holds the generic table operations and the counting lemmas. It also has the count rule used by `$in` lookups: when names are unique, the match count equals the request length exactly when every name is known and none repeats.
- `Schemas` holds the Joi schemas.
- `CardCatalog` holds the catalog handlers and the catalog invariant `Valid`: unique ids everywhere and unique card names.
- `Decks` holds the validator and the deck handlers.
- `Accounts` holds the top-up.
- `AdminGuard` holds `cekAdmin`.

## Model

| member | source | states |
|---|---|---|
| Common.ElementsCard | src/controllers/userController.js:174-180 | A list has at most as many distinct elements as positions, and exactly as many precisely when no element repeats (the `new Set` count). |
| Store.FindByName | src/controllers/cardController.js:146-150 | `findOne({name})` finds nothing exactly when no record has the name; otherwise it finds a record with that name, and with unique names it is the only one. |
| Store.FindByNameFirst | src/controllers/userController.js:201-202 | `findOne({name})` answers the earliest record with the name: every record before it holds another name. |
| Store.FindById | src/controllers/cardController.js:208-212 | `findById` finds nothing exactly when the id is absent; otherwise it finds a record with the id, and with unique ids it is the only one. |
| Store.MatchNames | src/controllers/cardController.js:166-166 | `$in` matching keeps exactly the records whose name is requested, and never more than the table has; unique ids and names carry over. |
| Store.MatchAll | src/controllers/cardController.js:164-173 | With unique names, the match count never exceeds the request length, and equals it exactly when every requested name is known and no name is repeated. |
| Store.Insert | src/controllers/cardController.js:177-184 | `create` appends one record with the given name and data under an id not in use, leaving earlier records in place; unique ids are kept, and so are unique names when the name is new. |
| Store.Remove | src/controllers/cardController.js:272-272 | `deleteOne({_id})` keeps exactly the records with other ids; an absent id changes nothing. |
| Store.RemoveCount | src/controllers/cardController.js:272-272 | With unique ids, deleting a present id removes exactly one record. |
| Store.RemoveUnique | src/controllers/cardController.js:272-272 | Deleting keeps ids and names unique. |
| Store.OverwriteMembers | src/controllers/cardController.js:246-252 | Saving a record under a present id keeps all records with other ids and adds only the replacement. |
| Store.OverwriteNames | src/controllers/cardController.js:246-252 | Renaming one record to a name no other record holds keeps names unique and swaps the old name for the new in the name set. |
| Schemas.Check | src/controllers/cardController.js:136-143 | A body is refused exactly when some rule is violated. The refusal is a 400 whose message is laid out as every violation's message in schema order, each at its offset, with ", " between neighbours and nothing else (all rules reported, not just the first). |
| Schemas.JoinLayout | src/controllers/cardController.js:139-141 | `join(", ")` places every part at its offset (the earlier parts plus one separator each), puts one separator after every part but the last, and has exactly the resulting length. |
| Schemas.LaidOutIsJoin | src/controllers/cardController.js:139-141 | That layout pins the text down: the only text with it is the joined one, so the layout is a full description of `join`. |
| Schemas.TextViolationsSound | validations/cardValidation.js:4-9 | A string field passes exactly when it is present, non-empty, alphanumeric if so required, and within its length bounds; every violation is reported under the field's own key. |
| Schemas.CardSchemaSound | validations/cardValidation.js:3-35 | A card body passes exactly when the name has 3..50 characters, faction and type are non-empty strings, the ability list (if given) has at most 2 entries, and power is present and in [0, 20]. |
| Schemas.CardSchemaReportsEach | validations/cardValidation.js:3-35 | Each card field has violations reported under its key exactly when that field breaks its own rule: the fields are judged independently. |
| Schemas.DescribedSchemaSound | validations/cardValidation.js:37-80 | A faction, type or ability body passes exactly when the name has 3..50 characters and the description 10..500, with each field judged on its own. |
| Schemas.LeaderSchemaSound | validations/cardValidation.js:82-97 | A leader body passes exactly when the name has 3..50 characters and faction and effect are non-empty strings. |
| Schemas.RegisterSchemaSound | src/validations/userValidation.js:3-26 | A registration passes exactly when the username is alphanumeric with 3..30 characters, the email is non-empty and email-shaped, the password has at least 6 characters, and the role is "player" or "admin". |
| Schemas.EmptyRoleBreaksTwoRules | src/validations/userValidation.js:21-25 | An empty role is reported twice under "role": first as not one of the allowed roles, then as an empty string, because Joi checks the allowed values before the string type. |
| Schemas.LoginSchemaSound | src/validations/userValidation.js:28-37 | A login passes exactly when username and password are present and non-empty, with no length or charset rule. |
| CardCatalog.AddNamed | src/controllers/cardController.js:326-338 | A taken name is refused with nothing written; otherwise exactly one record with a fresh id is appended, and uniqueness is kept. |
| CardCatalog.UpdateNamed | src/controllers/cardController.js:360-373 | An unknown id is 404; otherwise only the records with that id change, and the id set is unchanged. |
| CardCatalog.DeleteById | src/controllers/cardController.js:383-398 | An unknown id is 404; otherwise the deleted record is answered and exactly the records with other ids remain, one fewer than before when ids are unique. |
| CardCatalog.ResolveAbilities | src/controllers/cardController.js:164-173 | An absent or empty list binds no abilities, and any refusal is "ability not found". An accepted list binds one id per requested name, and its ids are exactly the ids of the abilities whose name was requested: each bound id belongs to a requested ability and each requested ability's id is bound. With unique ability names, the list is accepted exactly when every name is known and none repeats. |
| CardCatalog.AddCard | src/controllers/cardController.js:133-192 | Checks run in order: schema (400), taken name (400), unknown faction (404), unknown type (404), abilities not found (404). Any refusal writes nothing. A body that passes the first four checks is accepted exactly when its abilities resolve. Success appends exactly one card with a fresh id, bound to the named faction's and type's ids and to the resolved abilities, with image path `/uploads/cards/<faction>/<name>.png`. The catalog invariant is kept. |
| CardCatalog.UpdateCard | src/controllers/cardController.js:194-260 | A bad schema is 400 and an unknown id is 404. A new name held by another card is 400, while keeping the card's current name is never refused as taken. Then come an unknown faction (404), an unknown type (404) and abilities not found (404). A body that passes the checks before the abilities is accepted exactly when its abilities resolve. Success overwrites only that card with the new name and power, bound to the named faction's and type's ids and to the resolved abilities, and keeps its image path. Card names stay unique, the old name swapped for the new. |
| CardCatalog.RenameKeepsCardsUnique | src/controllers/cardController.js:214-221 | A rename that passes the clash check keeps ids and card names unique. |
| CardCatalog.DeleteCard | src/controllers/cardController.js:262-280 | An unknown id is 404; otherwise the reply is 200 with the card that `findById` finds, exactly that card is removed, and the invariant is kept. |
| CardCatalog.AddDescribed | src/controllers/cardController.js:313-348 | Covers `tambahAbility`, `tambahFaction` and `tambahTypeCard`. Schema failures are 400 and a taken name is 400, both writing nothing. A valid body with an untaken name is always accepted, creating one record: 201 for abilities and factions, 200 for types (lines 685-720). |
| CardCatalog.UpdateDescribed | src/controllers/cardController.js:350-381 | Covers `updateAbility`, `updateFaction` and `updateTypeCard`. A bad schema is 400 and an unknown id is 404. Otherwise the record is overwritten with no name check, and the invariant is kept. |
| CardCatalog.UpdateAbilityMayDuplicateName | src/controllers/cardController.js:370-373 | Renaming an ability to a name another ability holds is accepted and leaves two abilities with one name. |
| CardCatalog.DeleteDescribed | src/controllers/cardController.js:383-399 | Covers `deleteAbility`, `deleteFaction` and `deleteTypeCard`. An unknown id is 404; otherwise the reply is 200 with the record that `findById` finds, exactly that record goes, and the other tables are untouched. |
| CardCatalog.AddLeader | src/controllers/cardController.js:551-594 | Checks run in order: schema (400), taken leader name (400), unknown faction (404). A body that passes all three is always accepted: one leader is created (201), bound to the faction's id. |
| CardCatalog.UpdateLeader | src/controllers/cardController.js:596-634 | Checks run in order: schema (400), unknown id (404), unknown faction (404). A body that passes all three is always accepted: name, faction id and effect are overwritten with no name check. |
| CardCatalog.DeleteLeader | src/controllers/cardController.js:636-652 | An unknown id is 404; otherwise the reply is 200 with the leader that `findById` finds, and exactly that leader goes. |
| CardCatalog.AddPowerUp | src/controllers/cardController.js:804-841 | A refused body is 400 and a taken name is 400. Otherwise one power-up is created with the given description and price (201). |
| CardCatalog.UpdatePowerUp | src/controllers/cardController.js:843-875 | A refused body is 400 and an unknown id is 404. Otherwise name, description and price are overwritten. |
| CardCatalog.DeletePowerUp | src/controllers/cardController.js:877-893 | An unknown id is 404; otherwise the reply is 200 with the power-up that `findById` finds, and exactly that power-up goes. |
| Decks.Dedup | src/controllers/userController.js:174-174 | `[...new Set(names)]` has the same elements as its input and no repeats. |
| Decks.MainFactions | src/controllers/userController.js:170-178 | The main factions are duplicate-free, and are exactly the non-Neutral faction names (any letter case) that some resolved card carries. Cards whose faction is gone or unnamed contribute nothing. |
| Decks.NeutralSpellings | src/controllers/userController.js:177-177 | For every name: it counts as Neutral exactly when it has seven characters and each is the small or the capital letter of "neutral" at that position. |
| Decks.Unmatched | src/controllers/userController.js:154-158 | The invalid-card list holds exactly the requested names outside the known set. |
| Decks.UnmatchedAppend | src/controllers/userController.js:156-158 | The invalid-card filter keeps request order: it distributes over concatenation. |
| Decks.Validate | src/controllers/userController.js:149-215 | Checks run in order, first failure wins, with one clause per reason. A short match count is refused with exactly the requested names no catalog card has, in request order. More than one main faction is refused listing them. Then come an unknown leader, a leader whose faction record is gone (500), and a leader whose faction is named differently from the deck faction (400). Success yields one id per requested name. The ids are exactly those of the catalog cards with a requested name, and each appears once when card ids are unique. The leader is the one `findOne` answers, and its faction is named exactly like the deck faction. |
| Decks.ResolvedIds | src/controllers/userController.js:195-195 | The ids taken from the matched cards are exactly the ids of the catalog cards with a requested name, and are all different when the catalog's ids are. |
| Decks.ValidateAcceptsComposable | src/controllers/userController.js:149-215 | On a valid catalog, the validator accepts exactly the composable proposals. That means every name is known and none repeats, there is at most one main faction, and the leader is known with a faction named (case-sensitively) like the sole main faction, or "Neutral" when there is none. |
| Decks.MainFactionsAreTheSet | src/controllers/userController.js:170-193 | The computed main-faction list holds exactly the set of non-Neutral factions of the requested cards. |
| Decks.DeckFactionAgrees | src/controllers/userController.js:192-193 | The deck faction computed from the list equals the one defined on the set: its sole main faction, else "Neutral". |
| Decks.RepeatedNameHasNoInvalidCards | src/controllers/userController.js:149-168 | A request that repeats a known card name is refused with an empty `invalidCards` list. |
| Decks.OneFactionWithNeutralScenario | src/controllers/userController.js:170-215 | A Nilfgaard card plus a Neutral card with a Nilfgaard leader is accepted as a Nilfgaard deck, with both card ids in catalog order. |
| Decks.FindOwned | src/controllers/userController.js:360-369 | The deck lookup finds nothing exactly when the caller owns no deck with that id, and otherwise finds such a deck. |
| Decks.CreateDeck | src/controllers/userController.js:106-236 | Checks run in order: body (400), a deck of the same name owned by the caller (400), then the validator's refusals. Any refusal writes nothing. Success appends one deck with a fresh id, owned by the caller, holding the resolved card ids and leader id, and answers 201 with the leader's name. Per-owner deck names stay unique. |
| Decks.UpdateDeck | src/controllers/userController.js:336-472 | A deck the caller does not own is 404 before any other check. Then comes the body (400). The name clash (400) is checked only when the name changes, and it ignores the deck itself. Past these checks the validator decides: its refusal is passed on unchanged, and its acceptance always updates the deck. Success replaces name, cards and leader and stores `totalCards` as the requested length. It answers with the stored deck, whose leader is the leader's id (lines 455-467). Per-owner names stay unique. |
| Decks.RenameKeepsDecksValid | src/controllers/userController.js:380-392 | A rename that passes the clash check keeps ids and per-owner deck names unique. |
| Decks.DeleteDeck | src/controllers/userController.js:474-501 | A deck the caller does not own is 404; otherwise exactly that deck goes and the table stays valid. |
| Decks.CreateDeckAsWritten | src/controllers/userController.js:129-136 | As wired, every `createDecks` request ends in 500 and writes nothing. |
| Decks.UpdateDeckAsWritten | src/controllers/userController.js:360-379 | As wired, `updateDecks` answers 404 for a deck the caller does not own and 500 for every other request. |
| Decks.MissingSchemaRefusesGoodDeck | src/controllers/userController.js:129-136 | A deck the rules accept is created by the corrected handler but refused with 500 as wired. |
| Accounts.Units | src/controllers/userController.js:521-521 | An amount of at least 5000 buys n ≥ 1 units with n·5000 ≤ amount < (n+1)·5000. |
| Accounts.Topup | src/controllers/userController.js:503-538 | An amount under 5000 is refused (400) before any lookup, and an unknown user is 404; neither changes anything. Otherwise only that user's record is overwritten: name, email and role are kept, the balance grows by the units bought, no other balance changes, and one history record of those units (not the raw amount) is appended. |
| Accounts.CreditedAppend | src/controllers/userController.js:527-530 | A new history record adds its units to its own user's credited total only. |
| Accounts.TopupBalances | src/controllers/userController.js:523-525 | Saving one user's record changes that user's balance only. |
| Accounts.TopupKeepsAccounts | src/controllers/userController.js:503-538 | For every user, balance minus credited history is the same before and after any top-up, accepted or refused. |
| Accounts.TopupBoundary | src/controllers/userController.js:509-521 | 4999 is refused; 5000 and 9999 credit 1 unit; 10000 credits 2. |
| AdminGuard.CekAdmin | middlewares/cekAdmin.js:1-13 | No caller is 401, a caller whose role is not exactly "admin" is 403, and only an admin passes on; each holds in both directions. |
| AdminGuard.ExactlyOneOutcome | middlewares/cekAdmin.js:1-13 | Every request gets exactly one of 401, 403 or passing on. |
| AdminGuard.RoleIsCaseSensitive | middlewares/cekAdmin.js:8-10 | A role "Admin", or no role at all, is refused with 403. |

## Left out

- I/O, persistence and concurrency are left out. Mongoose, `populate`, awaiting and the unguarded load-modify-save of `topup` are not modelled. Each handler is one atomic step on immutable state. The history write that `topup` does not await is modelled as happening.
- Mongo unique indexes on names are left out. They are part of the database, not the handlers. `CardCatalog.UpdateAbilityMayDuplicateName` shows that the handlers do not check names themselves.
- Database failures and the answers they cause in the outer `catch` blocks are left out. Those blocks answer 500 in the card and deck handlers and 400 in `topup` (src/controllers/userController.js:535-536), `register` (line 57) and `login` (line 102). The two exceptions the handler logic itself raises are modelled: a leader whose faction record is gone (`LeaderFactionMissing`) and the missing deck schema (Findings).
- Listing, search and read handlers are left out (`getAll*`, `getSingle*`, `getDecks`, regex filtering, `getHistoryTopup`). They read data and do not change state.
- bcrypt hashing, JWT signing and verification, `register` and `login` are left out as external crypto calls. Only their schemas are modelled.
- The axios card API fetch, multer upload and `sendFile` are left out as external calls.
- The string form of `cards` is left out: `JSON.parse` and the comma-split fallback. The deck handlers take `cards` as a list of names.
- JavaScript and Joi type coercion is left out. This covers non-string JSON values for string fields, numeric strings, `Number(power)`, NaN and non-integer numbers, and unknown body keys. Fields are modelled as optional strings, optional integers and optional string lists.
- Schemas.CardSchemaSound: Joi's per-item rules for ability entries are left out, namely `.empty("")` on items and the item type check. Only the list-length bound is modelled.
- Decks.NeutralSpellings: `toLowerCase` is modelled on ASCII letters only. Unicode case mapping is left out.
- Schemas.TextViolationsSound: Joi's `min` and `max` count JavaScript string length, which is UTF-16 code units. The model counts characters. A name such as "😀😀" is 4 units long in the source and passes a 3-character minimum, while the model counts 2 and reports it too short. The difference matters only outside the Basic Multilingual Plane, and it affects every length bound: card, faction, type, ability and leader names, descriptions, and the register username and password.
- Schemas.CardSchemaSound: JavaScript numbers are doubles. Above 2^53 Joi reports `number.unsafe` instead of the power bound, and `saldo` and top-up amounts lose precision there. The model uses unbounded integers throughout, so `Accounts.Topup` also does not model that rounding.
- The card, faction, type, ability, leader and power-up schemas are loaded from src/validations/cardValidation.js (through src/validations/index.js:1-8). That file is not part of this model. The model follows validations/cardValidation.js and assumes the two agree. That file defines no power-up schema, so the `verdict` parameter of `AddPowerUp` and `UpdatePowerUp` assumes src/validations/cardValidation.js exports `powerUpValidation` (imported at src/validations/index.js:7). Without that export, the schema call would throw. In these two handlers the validation `try`/`catch` stands outside the handler's main `try` (src/controllers/cardController.js:807-814 and 847-854), so the second TypeError, from `.details.map` in the `catch`, leaves the handler and no answer is sent by it. What the client then sees depends on Express's handling of a rejected async handler, which is not part of this model.
- Mongoose trims names before saving (`trim: true` in src/models/Card.js:10, and likewise in Ability, Faction and PowerUp). The model stores names as given, so a name sent with surrounding spaces is compared untrimmed.
- CardCatalog.AddPowerUp: the power-up schema is not part of this model. Its outcome is a parameter (`verdict`, where `Some(message)` means a refused body).
- CardCatalog.UpdatePowerUp: the power-up schema is not part of this model; same parameter as `AddPowerUp`.
- Decks.CreateDeck: the deck-body schema is not defined anywhere in the source. Its outcome is a parameter (`verdict`); see Findings for what the wiring does instead.
- Decks.DeleteDeck: `deleteOne` removes one record, the model removes every record with the id. The two agree when ids are unique, which `Decks.DecksValid` requires.
- Soft deletion of users and history (`mongoose-delete`) is left out. The users table holds live users only.
- Route wiring is left out: which middleware guards which route and the route parameter names. So is the token check that sets the caller.
- Match resolution, play credits and power-up purchases are left out. The source has only schemas for them and no logic.

## Findings

| source | as written | input that shows it | evidently intended | confidence | as-written member | corrected member |
|---|---|---|---|---|---|---|
| src/controllers/userController.js:129-136 | `deckValidation` comes from src/validations/index.js, which takes it from src/validations/userValidation.js. That file exports only the register and login schemas (lines 39-42). `deckValidation.validateAsync` therefore throws. The `catch` then reads `.details` of that TypeError, gets `undefined`, and throws again on `.map`. The outer handler answers 500. | any `createDecks` request, e.g. cards ["Cahir", "Dandelion"] with leader "Emhyr" on a catalog where that deck is valid | the body is checked by a deck schema and the deck rules decide; `updateDecks` (lines 371-379) has the same gap after its ownership check | high (not executed) | Decks.CreateDeckAsWritten (with Decks.MissingSchemaRefusesGoodDeck) | Decks.CreateDeck |

=== FILE: accounts.dfy ===
/** Players' balances and the top-up handler of `userController.js`: money
    is converted to play balance at a fixed rate of one unit per 5000, and
    every top-up leaves a history record of the units credited. */
module Accounts {
  import opened Common
  import opened Store

  /** A user record: the name is the username. */
  datatype UserData = UserData(email: string, role: Option<string>, saldo: int)

  /** One top-up history record: whom, and how many units. */
  datatype TopupRecord = TopupRecord(user: Id, amount: int)

  /** The users and the top-up history. */
  datatype Ledger = Ledger(users: Table<UserData>, history: seq<TopupRecord>)

  /** A top-up's effect on the ledger and its reply. */
  datatype LedgerStep = LedgerStep(after: Ledger, reply: Reply<Entry<UserData>>)

  /** Money per unit of balance, and the smallest accepted top-up. */
  const Rate: nat := 5000

  /** The units a top-up of `amount` buys: whole multiples of the rate. */
  function Units(amount: int): (n: nat)
    requires amount >= Rate
    ensures n >= 1
    ensures n * Rate <= amount < (n + 1) * Rate
  {
    amount / Rate
  }

  /** A user's balance; 0 for an unknown user. */
  function Balance(users: Table<UserData>, user: Id): int
  {
    match FindById(users, user)
    case None => 0
    case Some(u) => u.data.saldo
  }

  /** The units the history says were credited to `user`. */
  function Credited(history: seq<TopupRecord>, user: Id): int
  {
    if history == [] then 0
    else Credited(history[..|history| - 1], user)
         + (if history[|history| - 1].user == user then history[|history| - 1].amount else 0)
  }

  /** Appending a record adds its amount to its own user's total only. */
  lemma CreditedAppend(history: seq<TopupRecord>, rec: TopupRecord, user: Id)
    ensures Credited(history + [rec], user) == Credited(history, user) + (if rec.user == user then rec.amount else 0)
  {
    assert (history + [rec])[..|history|] == history;
  }

  /** `topup`: an amount under the minimum is refused before the user is
      looked up; an unknown user is 404; otherwise the user's balance grows
      by the units bought and a history record of those units is appended. */
  function Topup(l: Ledger, user: Id, amount: int): (r: LedgerStep)
    ensures r.reply.Rejected? ==> r.after == l
    ensures amount < Rate ==> r.reply == Rejected(BelowMinimum)
    ensures amount >= Rate && user !in Ids(l.users) ==> r.reply == Rejected(UserNotFound)
    ensures amount >= Rate && user in Ids(l.users) ==>
      && r.reply.Accepted? && r.reply.status == HttpOk
      && r.reply.value.id == user
      && r.after.history == l.history + [TopupRecord(user, Units(amount))]
      && Ids(r.after.users) == Ids(l.users)
      && var u := FindById(l.users, user).value;
      && r.reply.value.name == u.name
      && r.reply.value.data.email == u.data.email && r.reply.value.data.role == u.data.role
      && r.reply.value.data.saldo == u.data.saldo + Units(amount)
      && r.after.users == Overwrite(l.users, user, u.name, r.reply.value.data)
    ensures UniqueIds(l.users) ==> UniqueIds(r.after.users)
    ensures UniqueIds(l.users) && r.reply.Accepted? ==>
      && Balance(r.after.users, user) == Balance(l.users, user) + Units(amount)
      && forall other :: other != user ==> Balance(r.after.users, other) == Balance(l.users, other)
  {
    if amount < Rate then LedgerStep(l, Rejected(BelowMinimum))
    else
      match FindById(l.users, user)
      case None => LedgerStep(l, Rejected(UserNotFound))
      case Some(u) =>
        var total := Units(amount);
        var updated := Entry(u.id, u.name, u.data.(saldo := u.data.saldo + total));
        var users := Overwrite(l.users, user, updated.name, updated.data);
        OverwriteIds(l.users, user, updated.name, updated.data);
        TopupBalances(l.users, u, updated.data);
        LedgerStep(Ledger(users, l.history + [TopupRecord(user, total)]), Accepted(HttpOk, updated))
  }

  /** Overwriting one user's record changes that user's balance only. */
  lemma TopupBalances(users: Table<UserData>, u: Entry<UserData>, data: UserData)
    requires u in users
    ensures UniqueIds(users) ==>
      && Balance(Overwrite(users, u.id, u.name, data), u.id) == data.saldo
      && forall other :: other != u.id ==> Balance(Overwrite(users, u.id, u.name, data), other) == Balance(users, other)
  {
    if UniqueIds(users) {
      var after := Overwrite(users, u.id, u.name, data);
      OverwriteIds(users, u.id, u.name, data);
      OverwriteMembers(users, u.id, u.name, data);
      forall other | other != u.id
        ensures Balance(after, other) == Balance(users, other)
      {
        var before := FindById(users, other);
        var now := FindById(after, other);
        if before.Some? {
          assert before.value in after;
        }
      }
    }
  }

  /** The ledger's accounting invariant: balance less the credited units,
      per user, is unchanged by any top-up, accepted or not. */
  lemma TopupKeepsAccounts(l: Ledger, user: Id, amount: int, who: Id)
    requires UniqueIds(l.users)
    ensures var r := Topup(l, user, amount);
      Balance(r.after.users, who) - Credited(r.after.history, who) == Balance(l.users, who) - Credited(l.history, who)
  {
    var r := Topup(l, user, amount);
    if r.reply.Accepted? {
      CreditedAppend(l.history, TopupRecord(user, Units(amount)), who);
    }
  }

  /** The minimum is inclusive, and amounts convert by whole units. */
  lemma TopupBoundary(l: Ledger, user: Id)
    requires user in Ids(l.users)
    ensures Topup(l, user, 4999).reply == Rejected(BelowMinimum)
    ensures Topup(l, user, 5000).after.history == l.history + [TopupRecord(user, 1)]
    ensures Topup(l, user, 9999).after.history == l.history + [TopupRecord(user, 1)]
    ensures Topup(l, user, 10000).after.history == l.history + [TopupRecord(user, 2)]
  {
  }
}

=== FILE: catalog.dfy ===
/** The catalog handlers of the card controller: insert, update and delete
    for cards, abilities, factions, card types, leaders and power-ups. Each
    handler maps the catalog and a request to the catalog afterwards and
    the reply; a refused request leaves the catalog as it was. */
module CardCatalog {
  import opened Common
  import opened Store
  import opened Schemas

  /** Payload of abilities, factions and card types. */
  datatype Described = Described(description: string)

  /** Payload of a leader: its faction's id and its effect text. */
  datatype LeaderData = LeaderData(faction: Id, effect: string)

  /** Payload of a power-up: description and price (`harga`). */
  datatype PowerUpData = PowerUpData(description: string, harga: int)

  /** Payload of a card: faction, type and ability ids, power, image path. */
  datatype CardData = CardData(faction: Id, typeCard: Id, ability: seq<Id>, power: int, image: string)

  datatype Catalog = Catalog(
    abilities: Table<Described>,
    factions: Table<Described>,
    types: Table<Described>,
    leaders: Table<LeaderData>,
    powerUps: Table<PowerUpData>,
    cards: Table<CardData>)

  /** What the handlers keep true: every table has unique ids, and no two
      cards share a name (the decks resolve cards by name). */
  ghost predicate Valid(c: Catalog)
  {
    && UniqueIds(c.abilities) && UniqueIds(c.factions) && UniqueIds(c.types)
    && UniqueIds(c.leaders) && UniqueIds(c.powerUps) && UniqueIds(c.cards)
    && UniqueNames(c.cards)
  }

  /** A handler's effect: the catalog afterwards and the reply. */
  datatype Step<+T> = Step(after: Catalog, reply: Reply<T>)

  function IdsOf<D(==)>(t: Table<D>): (ids: seq<Id>)
    ensures |ids| == |t|
    ensures forall i :: 0 <= i < |t| ==> ids[i] == t[i].id
  {
    seq(|t|, i requires 0 <= i < |t| => t[i].id)
  }

  /** Where a new card's image is stored. */
  function ImagePath(faction: string, name: string): string
  {
    "/uploads/cards/" + faction + "/" + name + ".png"
  }

  // ---------------------------------------------------------------- shared shapes

  /** The shape of `tambahAbility`, `tambahFaction`, `tambahTypeCard` and
      `tambahPowerUp`: refuse a name that is already present, else create. */
  function AddNamed<D(==)>(t: Table<D>, name: string, data: D, status: Status): (r: (Table<D>, Reply<Entry<D>>))
    ensures name in Names(t) ==> r == (t, Rejected(NameTaken))
    ensures name !in Names(t) ==>
      && r.1.Accepted? && r.1.status == status
      && r.0 == t + [r.1.value]
      && r.1.value.name == name && r.1.value.data == data && r.1.value.id !in Ids(t)
    ensures UniqueIds(t) ==> UniqueIds(r.0)
    ensures UniqueNames(t) ==> UniqueNames(r.0)
  {
    if FindByName(t, name).Some? then (t, Rejected(NameTaken))
    else
      var t' := Insert(t, name, data);
      assert t' == t + [t'[|t|]];
      (t', Accepted(status, t'[|t|]))
  }

  /** The shape of `updateAbility`, `updateFaction`, `updateTypeCard` and
      `updatePowerUp`: the record with the id takes the new fields; no
      check that another record holds the name. */
  function UpdateNamed<D(==)>(t: Table<D>, id: Id, name: string, data: D): (r: (Table<D>, Reply<Entry<D>>))
    ensures id !in Ids(t) ==> r == (t, Rejected(RecordNotFound))
    ensures id in Ids(t) ==>
      && r.1 == Accepted(HttpOk, Entry(id, name, data))
      && |r.0| == |t|
      && forall i :: 0 <= i < |t| ==> r.0[i] == (if t[i].id == id then Entry(id, name, data) else t[i])
    ensures Ids(r.0) == Ids(t)
    ensures UniqueIds(t) ==> UniqueIds(r.0)
  {
    if FindById(t, id).None? then (t, Rejected(RecordNotFound))
    else
      var t' := Overwrite(t, id, name, data);
      assert forall i :: 0 <= i < |t| ==> t'[i].id == t[i].id;
      assert Ids(t') == Ids(t) by {
        forall x | x in Ids(t) ensures x in Ids(t') {
          var i :| 0 <= i < |t| && t[i].id == x;
          assert t'[i].id == x;
        }
      }
      (t', Accepted(HttpOk, Entry(id, name, data)))
  }

  /** The shape of every `delete*` handler: 404 for an unknown id, otherwise
      drop exactly that record and answer 200 with it (the handlers' messages
      name it). */
  function DeleteById<D(==,!new)>(t: Table<D>, id: Id): (r: (Table<D>, Reply<Entry<D>>))
    ensures id !in Ids(t) ==> r == (t, Rejected(RecordNotFound))
    ensures id in Ids(t) ==>
      && r.1.Accepted? && r.1.status == HttpOk
      && r.1.value in t && r.1.value.id == id
      && r.1.value == FindById(t, id).value
      && (forall e :: e in r.0 <==> e in t && e.id != id)
    ensures UniqueIds(t) && id in Ids(t) ==> |r.0| == |t| - 1
    ensures UniqueIds(t) ==> UniqueIds(r.0)
    ensures UniqueNames(t) ==> UniqueNames(r.0)
  {
    RemoveUnique(t, id);
    match FindById(t, id)
    case None => (t, Rejected(RecordNotFound))
    case Some(e) =>
      RemoveCount(t, id);
      (Remove(t, id), Accepted(HttpOk, e))
  }

  // ---------------------------------------------------------------- cards

  /** `$in` lookup of a card's abilities: none requested means none bound;
      otherwise every requested name must find its own record. */
  function ResolveAbilities(abilities: Table<Described>, requested: Option<seq<string>>): (r: Result<seq<Id>>)
    ensures (requested.None? || requested.value == []) ==> r == Ok([])
    ensures r.Err? ==> r.reason == AbilityNotFound
    ensures r.Ok? ==> forall id :: id in r.value ==> id in Ids(abilities)
    ensures r.Ok? && requested.Some? ==> |r.value| == |requested.value|
    ensures r.Ok? && requested.Some? ==>
      forall id :: id in r.value ==> exists a :: a in abilities && a.id == id && a.name in requested.value
    ensures r.Ok? && requested.Some? ==>
      forall a :: a in abilities && a.name in requested.value ==> a.id in r.value
    ensures UniqueNames(abilities) && requested.Some? && requested.value != [] ==>
      (r.Ok? <==> (forall n :: n in requested.value ==> n in Names(abilities)) && Distinct(requested.value))
  {
    if requested.None? || |requested.value| == 0 then Ok([])
    else
      var found := MatchNames(abilities, requested.value);
      MatchAll(abilities, requested.value);
      if |found| != |requested.value| then Err(AbilityNotFound)
      else
        var ids := IdsOf(found);
        forall id | id in ids
          ensures exists a :: a in abilities && a.id == id && a.name in requested.value
        {
          var i :| 0 <= i < |ids| && ids[i] == id;
          assert found[i] in found;
        }
        forall a | a in abilities && a.name in requested.value ensures a.id in ids {
          assert a in found;
          var i :| 0 <= i < |found| && found[i] == a;
          assert ids[i] == a.id;
        }
        Ok(ids)
  }

  /** A card's faction, type and abilities are the ids of the faction named
      `faction`, the type named `cardType` and the abilities named in
      `ability`. */
  ghost predicate BoundTo(c: Catalog, faction: string, cardType: string, ability: Option<seq<string>>, data: CardData)
  {
    && (exists fac :: fac in c.factions && fac.id == data.faction && fac.name == faction)
    && (exists ty :: ty in c.types && ty.id == data.typeCard && ty.name == cardType)
    && ResolveAbilities(c.abilities, ability) == Ok(data.ability)
  }

  /** `tambahCard`: schema, then taken name (400), unknown faction (404),
      unknown type (404), unresolved abilities (404); otherwise exactly one
      card is added, bound to ids, with its image path. */
  function AddCard(c: Catalog, f: CardForm): (r: Step<Entry<CardData>>)
    ensures r.reply.Rejected? ==> r.after == c
    ensures CardViolations(f) != [] ==> r.reply == Rejected(InvalidBody(Join(Messages(CardViolations(f)), ", ")))
    ensures CardFormOk(f) && f.name.value in Names(c.cards) ==> r.reply == Rejected(NameTaken)
    ensures CardFormOk(f) && f.name.value !in Names(c.cards) && f.faction.value !in Names(c.factions) ==>
      r.reply == Rejected(FactionNotFound)
    ensures
      && CardFormOk(f) && f.name.value !in Names(c.cards) && f.faction.value in Names(c.factions)
      && f.cardType.value !in Names(c.types)
      ==> r.reply == Rejected(TypeNotFound)
    ensures
      && CardFormOk(f) && f.name.value !in Names(c.cards) && f.faction.value in Names(c.factions)
      && f.cardType.value in Names(c.types)
      ==> (r.reply.Accepted? <==> ResolveAbilities(c.abilities, f.ability).Ok?)
          && (r.reply.Rejected? ==> r.reply == Rejected(AbilityNotFound))
    ensures r.reply.Accepted? ==>
      && CardFormOk(f)
      && r.reply.status == HttpOk
      && var e := r.reply.value;
      && r.after == c.(cards := c.cards + [e])
      && e.id !in Ids(c.cards)
      && e.name == f.name.value && e.name !in Names(c.cards)
      && e.data.power == f.power.value
      && e.data.image == ImagePath(f.faction.value, f.name.value)
      && BoundTo(c, f.faction.value, f.cardType.value, f.ability, e.data)
    ensures Valid(c) ==> Valid(r.after)
  {
    CardSchemaSound(f);
    match Check(CardViolations(f))
    case Some(reason) => Step(c, Rejected(reason))
    case None =>
      var name := f.name.value;
      if FindByName(c.cards, name).Some? then Step(c, Rejected(NameTaken))
      else
        match FindByName(c.factions, f.faction.value)
        case None => Step(c, Rejected(FactionNotFound))
        case Some(fac) =>
          match FindByName(c.types, f.cardType.value)
          case None => Step(c, Rejected(TypeNotFound))
          case Some(ty) =>
            match ResolveAbilities(c.abilities, f.ability)
            case Err(reason) => Step(c, Rejected(reason))
            case Ok(abilityIds) =>
              var data := CardData(fac.id, ty.id, abilityIds, f.power.value, ImagePath(f.faction.value, name));
              assert BoundTo(c, f.faction.value, f.cardType.value, f.ability, data);
              var cards := Insert(c.cards, name, data);
              assert cards == c.cards + [cards[|c.cards|]];
              Step(c.(cards := cards), Accepted(HttpOk, cards[|c.cards|]))
  }

  /** The card `id` exists and may take `name`: it is its own name, or no
      card holds it. */
  predicate RenameAllowed(t: Table<CardData>, id: Id, name: string)
  {
    id in Ids(t) && (name == FindById(t, id).value.name || name !in Names(t))
  }

  /** `updateCard`: schema, unknown id (404), a new name another card holds
      (400), then the same faction, type and ability rules as `tambahCard`;
      keeping the current name is allowed. The image path is kept. */
  function UpdateCard(c: Catalog, id: Id, f: CardForm): (r: Step<Entry<CardData>>)
    ensures r.reply.Rejected? ==> r.after == c
    ensures CardViolations(f) != [] ==> r.reply == Rejected(InvalidBody(Join(Messages(CardViolations(f)), ", ")))
    ensures CardFormOk(f) && id !in Ids(c.cards) ==> r.reply == Rejected(RecordNotFound)
    ensures CardFormOk(f) && id in Ids(c.cards)
      && (exists e :: e in c.cards && e.id != id && e.name == f.name.value)
      && (forall e :: e in c.cards && e.id == id ==> e.name != f.name.value)
      ==> r.reply == Rejected(NameTaken)
    ensures f.name.Some? && id in Ids(c.cards) && FindById(c.cards, id).value.name == f.name.value
      ==> r.reply != Rejected(NameTaken)
    ensures CardFormOk(f) && RenameAllowed(c.cards, id, f.name.value) && f.faction.value !in Names(c.factions)
      ==> r.reply == Rejected(FactionNotFound)
    ensures
      && CardFormOk(f) && RenameAllowed(c.cards, id, f.name.value) && f.faction.value in Names(c.factions)
      && f.cardType.value !in Names(c.types)
      ==> r.reply == Rejected(TypeNotFound)
    ensures
      && CardFormOk(f) && RenameAllowed(c.cards, id, f.name.value) && f.faction.value in Names(c.factions)
      && f.cardType.value in Names(c.types)
      ==> (r.reply.Accepted? <==> ResolveAbilities(c.abilities, f.ability).Ok?)
          && (r.reply.Rejected? ==> r.reply == Rejected(AbilityNotFound))
    ensures r.reply.Accepted? ==>
      && CardFormOk(f)
      && id in Ids(c.cards)
      && r.reply.status == HttpOk
      && r.reply.value.id == id && r.reply.value.name == f.name.value
      && r.reply.value.data.power == f.power.value
      && r.reply.value.data.image == FindById(c.cards, id).value.data.image
      && BoundTo(c, f.faction.value, f.cardType.value, f.ability, r.reply.value.data)
      && r.after == c.(cards := Overwrite(c.cards, id, f.name.value, r.reply.value.data))
    ensures Valid(c) ==> Valid(r.after)
    ensures Valid(c) && r.reply.Accepted? ==> Names(r.after.cards) == Names(c.cards) - {FindById(c.cards, id).value.name} + {f.name.value}
  {
    CardSchemaSound(f);
    match Check(CardViolations(f))
    case Some(reason) => Step(c, Rejected(reason))
    case None =>
      var name := f.name.value;
      match FindById(c.cards, id)
      case None => Step(c, Rejected(RecordNotFound))
      case Some(current) =>
        if name != current.name && FindByName(c.cards, name).Some? then Step(c, Rejected(NameTaken))
        else
          match FindByName(c.factions, f.faction.value)
          case None => Step(c, Rejected(FactionNotFound))
          case Some(fac) =>
            match FindByName(c.types, f.cardType.value)
            case None => Step(c, Rejected(TypeNotFound))
            case Some(ty) =>
              match ResolveAbilities(c.abilities, f.ability)
              case Err(reason) => Step(c, Rejected(reason))
              case Ok(abilityIds) =>
                var data := CardData(fac.id, ty.id, abilityIds, f.power.value, current.data.image);
                assert BoundTo(c, f.faction.value, f.cardType.value, f.ability, data);
                RenameKeepsCardsUnique(c.cards, id, current, name, data);
                Step(c.(cards := Overwrite(c.cards, id, name, data)), Accepted(HttpOk, Entry(id, name, data)))
  }

  /** The rename rule: after the checks of `updateCard`, no other card holds
      the new name, so the overwrite keeps card names unique and swaps the
      old name for the new one. */
  lemma RenameKeepsCardsUnique(t: Table<CardData>, id: Id, current: Entry<CardData>, name: string, data: CardData)
    requires current in t && current.id == id
    requires name == current.name || name !in Names(t)
    ensures Ids(Overwrite(t, id, name, data)) == Ids(t)
    ensures UniqueIds(t) ==> UniqueIds(Overwrite(t, id, name, data))
    ensures UniqueIds(t) && UniqueNames(t) ==>
      && UniqueNames(Overwrite(t, id, name, data))
      && Names(Overwrite(t, id, name, data)) == Names(t) - {current.name} + {name}
  {
    OverwriteIds(t, id, name, data);
    if UniqueIds(t) && UniqueNames(t) {
      var k :| 0 <= k < |t| && t[k] == current;
      forall i | 0 <= i < |t| && i != k ensures t[i].name != name {
        assert t[i] in t;
      }
      OverwriteNames(t, k, name, data);
    }
  }

  /** `deleteCard`: 404 for an unknown id, otherwise 200 naming the card
      that goes. */
  function DeleteCard(c: Catalog, id: Id): (r: Step<Entry<CardData>>)
    ensures id !in Ids(c.cards) ==> r == Step(c, Rejected(RecordNotFound))
    ensures id in Ids(c.cards) ==>
      && r.reply == Accepted(HttpOk, FindById(c.cards, id).value)
      && r.after == c.(cards := Remove(c.cards, id))
    ensures Valid(c) ==> Valid(r.after)
  {
    var (t, reply) := DeleteById(c.cards, id);
    Step(c.(cards := t), reply)
  }

  // ------------------------------------------------ abilities, factions, card types

  function DescribedTable(c: Catalog, k: Kind): Table<Described>
  {
    match k
    case FactionKind => c.factions
    case TypeKind => c.types
    case AbilityKind => c.abilities
  }

  /** The catalog with the table of kind `k` replaced, the others untouched. */
  function WithDescribed(c: Catalog, k: Kind, t: Table<Described>): (c': Catalog)
    ensures DescribedTable(c', k) == t
    ensures forall k' :: k' != k ==> DescribedTable(c', k') == DescribedTable(c, k')
    ensures c'.leaders == c.leaders && c'.powerUps == c.powerUps && c'.cards == c.cards
  {
    match k
    case FactionKind => c.(factions := t)
    case TypeKind => c.(types := t)
    case AbilityKind => c.(abilities := t)
  }

  /** `tambahFaction`, `tambahTypeCard`, `tambahAbility`: schema (400), a name
      already present (400), else one record is created; the type handler
      answers 200, the other two 201. */
  function AddDescribed(c: Catalog, k: Kind, f: DescribedForm): (r: Step<Entry<Described>>)
    ensures r.reply.Rejected? ==> r.after == c
    ensures DescribedViolations(k, f) != [] ==> r.reply == Rejected(InvalidBody(Join(Messages(DescribedViolations(k, f)), ", ")))
    ensures DescribedViolations(k, f) == [] && f.name.value in Names(DescribedTable(c, k)) ==> r.reply == Rejected(NameTaken)
    ensures DescribedViolations(k, f) == [] && f.name.value !in Names(DescribedTable(c, k)) ==> r.reply.Accepted?
    ensures r.reply.Accepted? ==>
      && DescribedViolations(k, f) == []
      && r.reply.status == (if k == TypeKind then HttpOk else HttpCreated)
      && r.reply.value.name == f.name.value && r.reply.value.name !in Names(DescribedTable(c, k))
      && r.reply.value.data == Described(f.description.value)
      && r.reply.value.id !in Ids(DescribedTable(c, k))
      && r.after == WithDescribed(c, k, DescribedTable(c, k) + [r.reply.value])
    ensures Valid(c) ==> Valid(r.after)
  {
    DescribedSchemaSound(k, f);
    match Check(DescribedViolations(k, f))
    case Some(reason) => Step(c, Rejected(reason))
    case None =>
      var status := if k == TypeKind then HttpOk else HttpCreated;
      var (t, reply) := AddNamed(DescribedTable(c, k), f.name.value, Described(f.description.value), status);
      if reply.Rejected? then Step(c, reply) else Step(WithDescribed(c, k, t), reply)
  }

  /** `updateFaction`, `updateTypeCard`, `updateAbility`: schema (400), unknown
      id (404), else the record takes the new name and description, with no
      check that another record already holds that name. */
  function UpdateDescribed(c: Catalog, k: Kind, id: Id, f: DescribedForm): (r: Step<Entry<Described>>)
    ensures r.reply.Rejected? ==> r.after == c
    ensures DescribedViolations(k, f) != [] ==> r.reply == Rejected(InvalidBody(Join(Messages(DescribedViolations(k, f)), ", ")))
    ensures DescribedViolations(k, f) == [] && id !in Ids(DescribedTable(c, k)) ==> r.reply == Rejected(RecordNotFound)
    ensures DescribedViolations(k, f) == [] && id in Ids(DescribedTable(c, k)) ==> r.reply.Accepted?
    ensures r.reply.Accepted? ==>
      && DescribedViolations(k, f) == [] && id in Ids(DescribedTable(c, k))
      && r.reply == Accepted(HttpOk, Entry(id, f.name.value, Described(f.description.value)))
      && r.after == WithDescribed(c, k, Overwrite(DescribedTable(c, k), id, f.name.value, Described(f.description.value)))
    ensures Valid(c) ==> Valid(r.after)
  {
    DescribedSchemaSound(k, f);
    match Check(DescribedViolations(k, f))
    case Some(reason) => Step(c, Rejected(reason))
    case None =>
      var (t, reply) := UpdateNamed(DescribedTable(c, k), id, f.name.value, Described(f.description.value));
      if reply.Rejected? then Step(c, reply) else Step(WithDescribed(c, k, t), reply)
  }

  /** `deleteFaction`, `deleteTypeCard`, `deleteAbility`: 404 for an unknown
      id, otherwise exactly that record goes and nothing else changes. */
  function DeleteDescribed(c: Catalog, k: Kind, id: Id): (r: Step<Entry<Described>>)
    ensures id !in Ids(DescribedTable(c, k)) ==> r == Step(c, Rejected(RecordNotFound))
    ensures id in Ids(DescribedTable(c, k)) ==>
      && r.reply == Accepted(HttpOk, FindById(DescribedTable(c, k), id).value)
      && r.after == WithDescribed(c, k, Remove(DescribedTable(c, k), id))
    ensures Valid(c) && id in Ids(DescribedTable(c, k)) ==> |DescribedTable(r.after, k)| == |DescribedTable(c, k)| - 1
    ensures Valid(c) ==> Valid(r.after)
  {
    var (t, reply) := DeleteById(DescribedTable(c, k), id);
    if reply.Rejected? then Step(c, reply) else Step(WithDescribed(c, k, t), reply)
  }

  /** The update handlers other than `updateCard` do not keep names unique:
      renaming the ability "Medic" to "Spy" is accepted although "Spy" is
      taken. */
  const TwoAbilities: Table<Described> :=
    [Entry(1, "Spy", Described("Reveals a card")), Entry(2, "Medic", Described("Revives a card"))]

  lemma UpdateAbilityMayDuplicateName()
    ensures
      var before := Catalog(TwoAbilities, [], [], [], [], []);
      var r := UpdateDescribed(before, AbilityKind, 2, DescribedForm(Some("Spy"), Some("Revives a card")));
      && UniqueNames(before.abilities)
      && r.reply.Accepted?
      && !UniqueNames(r.after.abilities)
  {
    var before := Catalog(TwoAbilities, [], [], [], [], []);
    var f := DescribedForm(Some("Spy"), Some("Revives a card"));
    DescribedSchemaSound(AbilityKind, f);
    assert 2 in Ids(TwoAbilities) by { assert TwoAbilities[1].id == 2; }
    var renamed := Overwrite(TwoAbilities, 2, "Spy", Described("Revives a card"));
    assert renamed[0] == TwoAbilities[0];
    assert renamed[1].name == "Spy";
    assert !UniqueNames(renamed);
    var r := UpdateDescribed(before, AbilityKind, 2, f);
    assert r.after.abilities == renamed;
  }

  // ---------------------------------------------------------------- leaders

  /** `tambahLeader`: schema (400), a leader name already present (400), an
      unknown faction (404), else one leader bound to the faction's id. */
  function AddLeader(c: Catalog, f: LeaderForm): (r: Step<Entry<LeaderData>>)
    ensures r.reply.Rejected? ==> r.after == c
    ensures LeaderViolations(f) != [] ==> r.reply == Rejected(InvalidBody(Join(Messages(LeaderViolations(f)), ", ")))
    ensures LeaderViolations(f) == [] && f.name.value in Names(c.leaders) ==> r.reply == Rejected(NameTaken)
    ensures LeaderViolations(f) == [] && f.name.value !in Names(c.leaders) && f.faction.value !in Names(c.factions)
      ==> r.reply == Rejected(FactionNotFound)
    ensures LeaderViolations(f) == [] && f.name.value !in Names(c.leaders) && f.faction.value in Names(c.factions)
      ==> r.reply.Accepted?
    ensures r.reply.Accepted? ==>
      && LeaderViolations(f) == []
      && r.reply.status == HttpCreated
      && var e := r.reply.value;
      && e.name == f.name.value && e.name !in Names(c.leaders) && e.id !in Ids(c.leaders)
      && e.data.effect == f.effect.value
      && (exists fac :: fac in c.factions && fac.id == e.data.faction && fac.name == f.faction.value)
      && r.after == c.(leaders := c.leaders + [e])
    ensures Valid(c) ==> Valid(r.after)
  {
    LeaderSchemaSound(f);
    match Check(LeaderViolations(f))
    case Some(reason) => Step(c, Rejected(reason))
    case None =>
      if FindByName(c.leaders, f.name.value).Some? then Step(c, Rejected(NameTaken))
      else
        match FindByName(c.factions, f.faction.value)
        case None => Step(c, Rejected(FactionNotFound))
        case Some(fac) =>
          var (t, reply) := AddNamed(c.leaders, f.name.value, LeaderData(fac.id, f.effect.value), HttpCreated);
          Step(c.(leaders := t), reply)
  }

  /** `updateLeader`: schema (400), unknown id (404), unknown faction (404),
      else overwrite name, faction and effect, with no name check. */
  function UpdateLeader(c: Catalog, id: Id, f: LeaderForm): (r: Step<Entry<LeaderData>>)
    ensures r.reply.Rejected? ==> r.after == c
    ensures LeaderViolations(f) != [] ==> r.reply == Rejected(InvalidBody(Join(Messages(LeaderViolations(f)), ", ")))
    ensures LeaderViolations(f) == [] && id !in Ids(c.leaders) ==> r.reply == Rejected(RecordNotFound)
    ensures LeaderViolations(f) == [] && id in Ids(c.leaders) && f.faction.value !in Names(c.factions)
      ==> r.reply == Rejected(FactionNotFound)
    ensures LeaderViolations(f) == [] && id in Ids(c.leaders) && f.faction.value in Names(c.factions)
      ==> r.reply.Accepted?
    ensures r.reply.Accepted? ==>
      && LeaderViolations(f) == [] && id in Ids(c.leaders)
      && r.reply.status == HttpOk
      && var e := r.reply.value;
      && e.id == id && e.name == f.name.value && e.data.effect == f.effect.value
      && (exists fac :: fac in c.factions && fac.id == e.data.faction && fac.name == f.faction.value)
      && r.after == c.(leaders := Overwrite(c.leaders, id, e.name, e.data))
    ensures Valid(c) ==> Valid(r.after)
  {
    LeaderSchemaSound(f);
    match Check(LeaderViolations(f))
    case Some(reason) => Step(c, Rejected(reason))
    case None =>
      if FindById(c.leaders, id).None? then Step(c, Rejected(RecordNotFound))
      else
        match FindByName(c.factions, f.faction.value)
        case None => Step(c, Rejected(FactionNotFound))
        case Some(fac) =>
          var (t, reply) := UpdateNamed(c.leaders, id, f.name.value, LeaderData(fac.id, f.effect.value));
          Step(c.(leaders := t), reply)
  }

  /** `deleteLeader`: 404 for an unknown id, otherwise 200 naming the
      leader that goes. */
  function DeleteLeader(c: Catalog, id: Id): (r: Step<Entry<LeaderData>>)
    ensures id !in Ids(c.leaders) ==> r == Step(c, Rejected(RecordNotFound))
    ensures id in Ids(c.leaders) ==>
      && r.reply == Accepted(HttpOk, FindById(c.leaders, id).value)
      && r.after == c.(leaders := Remove(c.leaders, id))
    ensures Valid(c) ==> Valid(r.after)
  {
    var (t, reply) := DeleteById(c.leaders, id);
    Step(c.(leaders := t), reply)
  }

  // ---------------------------------------------------------------- power-ups

  /** `tambahPowerUp`. Its schema is not part of this model: `verdict` is the
      schema's outcome, `Some(message)` for a refused body. */
  function AddPowerUp(c: Catalog, verdict: Option<string>, name: string, description: string, harga: int): (r: Step<Entry<PowerUpData>>)
    ensures r.reply.Rejected? ==> r.after == c
    ensures verdict.Some? ==> r.reply == Rejected(InvalidBody(verdict.value))
    ensures verdict.None? && name in Names(c.powerUps) ==> r.reply == Rejected(NameTaken)
    ensures verdict.None? && name !in Names(c.powerUps) ==>
      && r.reply.Accepted? && r.reply.status == HttpCreated
      && r.reply.value.name == name && r.reply.value.data == PowerUpData(description, harga)
      && r.after == c.(powerUps := c.powerUps + [r.reply.value])
    ensures Valid(c) ==> Valid(r.after)
  {
    if verdict.Some? then Step(c, Rejected(InvalidBody(verdict.value)))
    else
      var (t, reply) := AddNamed(c.powerUps, name, PowerUpData(description, harga), HttpCreated);
      Step(c.(powerUps := t), reply)
  }

  /** `updatePowerUp`: abstract schema verdict, unknown id (404), else
      overwrite name, description and price. */
  function UpdatePowerUp(c: Catalog, verdict: Option<string>, id: Id, name: string, description: string, harga: int): (r: Step<Entry<PowerUpData>>)
    ensures r.reply.Rejected? ==> r.after == c
    ensures verdict.Some? ==> r.reply == Rejected(InvalidBody(verdict.value))
    ensures verdict.None? && id !in Ids(c.powerUps) ==> r.reply == Rejected(RecordNotFound)
    ensures verdict.None? && id in Ids(c.powerUps) ==>
      && r.reply == Accepted(HttpOk, Entry(id, name, PowerUpData(description, harga)))
      && r.after == c.(powerUps := Overwrite(c.powerUps, id, name, PowerUpData(description, harga)))
    ensures Valid(c) ==> Valid(r.after)
  {
    if verdict.Some? then Step(c, Rejected(InvalidBody(verdict.value)))
    else
      var (t, reply) := UpdateNamed(c.powerUps, id, name, PowerUpData(description, harga));
      Step(c.(powerUps := t), reply)
  }

  /** `deletePowerUp`: 404 for an unknown id, otherwise 200 naming the
      power-up that goes. */
  function DeletePowerUp(c: Catalog, id: Id): (r: Step<Entry<PowerUpData>>)
    ensures id !in Ids(c.powerUps) ==> r == Step(c, Rejected(RecordNotFound))
    ensures id in Ids(c.powerUps) ==>
      && r.reply == Accepted(HttpOk, FindById(c.powerUps, id).value)
      && r.after == c.(powerUps := Remove(c.powerUps, id))
    ensures Valid(c) ==> Valid(r.after)
  {
    var (t, reply) := DeleteById(c.powerUps, id);
    Step(c.(powerUps := t), reply)
  }
}

=== FILE: common.dfy ===
/** Vocabulary shared by every handler of the card-game backend: optional
    values, record identifiers, HTTP statuses and the reasons a handler
    gives when it refuses a request. */
module Common {

  /** A value that may be absent (a missing JSON field, a failed lookup). */
  datatype Option<+T> = None | Some(value: T)

  /** Database identifiers (Mongo ObjectIds) are modelled as naturals. */
  type Id = nat

  /** The HTTP statuses the handlers answer with. */
  datatype Status = HttpOk | HttpCreated | HttpBadRequest | HttpUnauthorized | HttpForbidden | HttpNotFound | HttpServerError
  {
    function Code(): int
    {
      match this
      case HttpOk => 200
      case HttpCreated => 201
      case HttpBadRequest => 400
      case HttpUnauthorized => 401
      case HttpForbidden => 403
      case HttpNotFound => 404
      case HttpServerError => 500
    }
  }

  /** Why a handler refused a request. */
  datatype Reason =
    | InvalidBody(message: string)                  // a request schema rejected the body
    | NameTaken                                     // a catalog record with that name exists
    | FactionNotFound
    | TypeNotFound
    | AbilityNotFound
    | RecordNotFound                                // no record with the given id
    | DeckNameTaken                                 // the owner already has a deck of that name
    | InvalidCards(invalidCards: seq<string>)       // some requested card names did not resolve
    | MixedFactions(conflictingFactions: seq<string>)
    | UnknownLeader
    | LeaderFactionMismatch
    | LeaderFactionMissing                          // the leader's faction record is gone
    | DeckNotFound                                  // no such deck owned by the caller
    | BelowMinimum                                  // top-up under the minimum amount
    | UserNotFound
    | ValidatorMissing                              // the handler calls a schema that is not defined

  /** The status each refusal is answered with. */
  function StatusOf(r: Reason): Status
  {
    match r
    case InvalidBody(_) => HttpBadRequest
    case NameTaken => HttpBadRequest
    case FactionNotFound => HttpNotFound
    case TypeNotFound => HttpNotFound
    case AbilityNotFound => HttpNotFound
    case RecordNotFound => HttpNotFound
    case DeckNameTaken => HttpBadRequest
    case InvalidCards(_) => HttpBadRequest
    case MixedFactions(_) => HttpBadRequest
    case UnknownLeader => HttpBadRequest
    case LeaderFactionMismatch => HttpBadRequest
    case LeaderFactionMissing => HttpServerError
    case DeckNotFound => HttpNotFound
    case BelowMinimum => HttpBadRequest
    case UserNotFound => HttpNotFound
    case ValidatorMissing => HttpServerError
  }

  /** Outcome of a pure decision: a value, or the reason for refusing. */
  datatype Result<+T> = Ok(value: T) | Err(reason: Reason)

  /** What a handler sends back: a success status with its payload, or a refusal. */
  datatype Reply<+T> = Accepted(status: Status, value: T) | Rejected(reason: Reason)
  {
    function Status(): Status
    {
      match this
      case Accepted(s, _) => s
      case Rejected(r) => StatusOf(r)
    }
  }

  /** The elements of `s` in a set. */
  function Elements<T>(s: seq<T>): set<T>
  {
    set x | x in s
  }

  /** No element of `s` occurs twice. */
  ghost predicate Distinct<T>(s: seq<T>)
  {
    forall i, j :: 0 <= i < j < |s| ==> s[i] != s[j]
  }

  /** A sequence has at most as many distinct elements as positions, and
      exactly as many precisely when no element repeats. */
  lemma {:induction false} ElementsCard<T>(s: seq<T>)
    ensures |Elements(s)| <= |s|
    ensures |Elements(s)| == |s| <==> Distinct(s)
  {
    if |s| == 0 {
      assert Elements(s) == {};
    } else {
      var rest := s[1..];
      ElementsCard(rest);
      assert Elements(s) == {s[0]} + Elements(rest) by {
        forall x | x in Elements(s) ensures x in {s[0]} + Elements(rest) {
          var i :| 0 <= i < |s| && s[i] == x;
          if i > 0 { assert rest[i - 1] == x; }
        }
      }
      if s[0] in rest {
        var k :| 0 <= k < |rest| && rest[k] == s[0];
        assert s[k + 1] == s[0];
        assert Elements(s) == Elements(rest);
        assert !Distinct(s);
      } else {
        assert |Elements(s)| == 1 + |Elements(rest)|;
        if Distinct(rest) {
          forall i, j | 0 <= i < j < |s| ensures s[i] != s[j] {
            if i == 0 {
              assert s[j] == rest[j - 1];
            } else {
              assert s[i] == rest[i - 1] && s[j] == rest[j - 1];
            }
          }
        } else {
          var i, j :| 0 <= i < j < |rest| && rest[i] == rest[j];
          assert s[i + 1] == s[j + 1];
        }
      }
    }
  }
}

=== FILE: decks.dfy ===
/** The deck builder of `userController.js`: a player proposes a deck as a
    list of card names and a leader name; the validator resolves the names
    against the catalog, insists on at most one main faction besides
    Neutral, and on a leader from the deck's faction. Decks live in their
    own table, keyed by id, with the deck's name as the record name. */
module Decks {
  import opened Common
  import opened Store
  import opened CardCatalog

  /** A stored deck: its owner, the resolved card ids, the resolved leader
      id, and the card count `updateDecks` records. */
  datatype DeckData = DeckData(owner: Id, cards: seq<Id>, leader: Id, totalCards: Option<nat>)

  /** What a valid proposal resolves to. */
  datatype Draft = Draft(cardIds: seq<Id>, leader: Entry<LeaderData>, faction: string)

  /** `createDecks` answers with the deck and the leader's name;
      `updateDecks` answers with the stored deck itself, whose leader is the
      leader's id. */
  datatype Receipt = Receipt(deck: Entry<DeckData>, leaderName: string)

  /** A deck handler's effect on the deck table and its reply. */
  datatype DeckStep<+T> = DeckStep(after: Table<DeckData>, reply: Reply<T>)

  // ------------------------------------------------------------ faction names

  function LowerChar(ch: char): char
  {
    if 'A' <= ch <= 'Z' then (ch as int + 32) as char else ch
  }

  /** `toLowerCase`, on the ASCII letters. */
  function ToLower(s: string): string
  {
    seq(|s|, i requires 0 <= i < |s| => LowerChar(s[i]))
  }

  /** A faction name counts as Neutral whatever its letter case. */
  predicate IsNeutral(name: string)
  {
    ToLower(name) == "neutral"
  }

  /** Lower-casing yields a given lower-case letter from exactly that
      letter and its capital. */
  lemma LowerCharIs(ch: char, x: char)
    requires 'a' <= x <= 'z'
    ensures LowerChar(ch) == x <==> ch == x || ch as int == x as int - 32
  {
  }

  /** Neutral is recognised in any letter case, and only that word: each of
      its seven letters may be small or capital, nothing else. */
  lemma NeutralSpellings(name: string)
    ensures IsNeutral(name) <==>
      |name| == 7 && forall i :: 0 <= i < 7 ==> name[i] == "neutral"[i] || name[i] == "NEUTRAL"[i]
  {
    forall i | 0 <= i < 7
      ensures 'a' <= "neutral"[i] <= 'z' && "NEUTRAL"[i] as int == "neutral"[i] as int - 32
    {
      if i == 0 {} else if i == 1 {} else if i == 2 {} else if i == 3 {} else if i == 4 {} else if i == 5 {} else {}
    }
    if |name| == 7 {
      forall i | 0 <= i < 7
        ensures ToLower(name)[i] == "neutral"[i] <==> name[i] == "neutral"[i] || name[i] == "NEUTRAL"[i]
      {
        LowerCharIs(name[i], "neutral"[i]);
      }
    }
  }

  /** The faction name a card contributes after `populate`: none when its
      faction record is gone or has an empty name. */
  function FactionNameOf(factions: Table<Described>, card: Entry<CardData>): (r: Option<string>)
    ensures r.Some? ==> r.value != "" && r.value in Names(factions)
  {
    match FindById(factions, card.data.faction)
    case None => None
    case Some(f) => if f.name == "" then None else Some(f.name)
  }

  /** The faction names of `cards`, in order, those without one dropped. */
  function FactionNames(factions: Table<Described>, cards: seq<Entry<CardData>>): (r: seq<string>)
    ensures forall x :: x in r <==> exists c :: c in cards && FactionNameOf(factions, c) == Some(x)
  {
    if cards == [] then []
    else
      var rest := FactionNames(factions, cards[1..]);
      assert forall c :: c in cards <==> c == cards[0] || c in cards[1..];
      match FactionNameOf(factions, cards[0])
      case None => rest
      case Some(x) => [x] + rest
  }

  /** `[...new Set(s)]` after `seen`: each name once, at its first position. */
  function DedupFrom(s: seq<string>, seen: set<string>): (r: seq<string>)
    ensures forall x :: x in r <==> x in s && x !in seen
    ensures Distinct(r)
  {
    if s == [] then []
    else if s[0] in seen then DedupFrom(s[1..], seen)
    else
      var rest := DedupFrom(s[1..], seen + {s[0]});
      assert forall x :: x in s <==> x == s[0] || x in s[1..];
      assert forall i :: 0 < i < |[s[0]] + rest| ==> ([s[0]] + rest)[i] == rest[i - 1];
      [s[0]] + rest
  }

  function Dedup(s: seq<string>): (r: seq<string>)
    ensures Elements(r) == Elements(s) && Distinct(r)
  {
    DedupFrom(s, {})
  }

  /** The names that are not Neutral, in order. */
  function NonNeutral(s: seq<string>): (r: seq<string>)
    ensures forall x :: x in r <==> x in s && !IsNeutral(x)
    ensures Distinct(s) ==> Distinct(r)
  {
    if s == [] then []
    else
      var rest := NonNeutral(s[1..]);
      assert forall x :: x in s <==> x == s[0] || x in s[1..];
      assert Distinct(s) ==> Distinct(s[1..]) && s[0] !in s[1..] by {
        if Distinct(s) {
          forall i, j | 0 <= i < j < |s[1..]| ensures s[1..][i] != s[1..][j] {
            assert s[1..][i] == s[i + 1] && s[1..][j] == s[j + 1];
          }
          forall k | 0 <= k < |s[1..]| ensures s[1..][k] != s[0] {
            assert s[1..][k] == s[k + 1];
          }
        }
      }
      if IsNeutral(s[0]) then rest
      else
        assert forall i :: 0 < i < |[s[0]] + rest| ==> ([s[0]] + rest)[i] == rest[i - 1];
        [s[0]] + rest
  }

  /** The distinct non-Neutral faction names of the resolved cards. */
  function MainFactions(factions: Table<Described>, cards: seq<Entry<CardData>>): (r: seq<string>)
    ensures Distinct(r)
    ensures forall x :: x in r <==> !IsNeutral(x) && exists c :: c in cards && FactionNameOf(factions, c) == Some(x)
  {
    NonNeutral(Dedup(FactionNames(factions, cards)))
  }

  /** The deck's faction: its one main faction, or "Neutral" when it has none. */
  function DeckFaction(main: seq<string>): string
  {
    if |main| == 1 then main[0] else "Neutral"
  }

  // ------------------------------------------------------------ card names

  /** The requested names outside `known`, in request order. */
  function Unmatched(names: seq<string>, known: set<string>): (r: seq<string>)
    ensures forall n :: n in r <==> n in names && n !in known
    ensures |r| <= |names|
  {
    if names == [] then []
    else
      assert forall n :: n in names <==> n == names[0] || n in names[1..];
      (if names[0] in known then [] else [names[0]]) + Unmatched(names[1..], known)
  }

  /** Filtering keeps request order: it distributes over concatenation. */
  lemma {:induction false} UnmatchedAppend(a: seq<string>, b: seq<string>, known: set<string>)
    ensures Unmatched(a + b, known) == Unmatched(a, known) + Unmatched(b, known)
  {
    if a == [] {
      assert a + b == b;
    } else {
      assert (a + b)[0] == a[0] && (a + b)[1..] == a[1..] + b;
      UnmatchedAppend(a[1..], b, known);
    }
  }

  // ------------------------------------------------------------ the validator

  /** The card, faction and leader checks shared by `createDecks` and
      `updateDecks`, first failure wins: unknown card names, more than one
      main faction, an unknown leader, a leader whose faction record is gone
      (the handler crashes on it and answers 500), a leader of another
      faction. */
  function Validate(cat: Catalog, cards: seq<string>, leader: string): (r: Result<Draft>)
    ensures var valid := MatchNames(cat.cards, cards);
      |valid| != |cards| <==> r.Err? && r.reason.InvalidCards?
    ensures r.Err? && r.reason.InvalidCards? ==> r.reason.invalidCards == Unmatched(cards, Names(cat.cards))
    ensures var valid := MatchNames(cat.cards, cards);
      |valid| == |cards| && |MainFactions(cat.factions, valid)| > 1
      ==> r == Err(MixedFactions(MainFactions(cat.factions, valid)))
    ensures var valid := MatchNames(cat.cards, cards);
      |valid| == |cards| && |MainFactions(cat.factions, valid)| <= 1 && leader !in Names(cat.leaders)
      ==> r == Err(UnknownLeader)
    ensures var valid := MatchNames(cat.cards, cards);
      |valid| == |cards| && |MainFactions(cat.factions, valid)| <= 1 && leader in Names(cat.leaders)
      && FindById(cat.factions, FindByName(cat.leaders, leader).value.data.faction).None?
      ==> r == Err(LeaderFactionMissing)
    ensures var valid := MatchNames(cat.cards, cards);
      |valid| == |cards| && |MainFactions(cat.factions, valid)| <= 1 && leader in Names(cat.leaders)
      && (var f := FindById(cat.factions, FindByName(cat.leaders, leader).value.data.faction);
          f.Some? && f.value.name != DeckFaction(MainFactions(cat.factions, valid)))
      ==> r == Err(LeaderFactionMismatch)
    ensures r.Err? ==> r.reason.InvalidCards? || r.reason.MixedFactions? || r.reason.UnknownLeader?
                       || r.reason.LeaderFactionMissing? || r.reason.LeaderFactionMismatch?
    ensures r.Ok? ==>
      && |r.value.cardIds| == |cards|
      && Elements(r.value.cardIds) == (set c | c in cat.cards && c.name in cards :: c.id)
      && FindByName(cat.leaders, leader) == Some(r.value.leader)
      && r.value.leader in cat.leaders && r.value.leader.name == leader
      && r.value.faction == DeckFaction(MainFactions(cat.factions, MatchNames(cat.cards, cards)))
      && (exists f :: f in cat.factions && f.id == r.value.leader.data.faction && f.name == r.value.faction)
    ensures r.Ok? && UniqueIds(cat.cards) ==> Distinct(r.value.cardIds)
  {
    var valid := MatchNames(cat.cards, cards);
    if |valid| != |cards| then
      MatchNamesNames(cat.cards, cards);
      assert forall n :: n in cards ==> (n in Names(valid) <==> n in Names(cat.cards));
      UnmatchedSameOn(cards, Names(valid), Names(cat.cards));
      Err(InvalidCards(Unmatched(cards, Names(valid))))
    else
      var main := MainFactions(cat.factions, valid);
      if |main| > 1 then Err(MixedFactions(main))
      else
        var deckFaction := DeckFaction(main);
        match FindByName(cat.leaders, leader)
        case None => Err(UnknownLeader)
        case Some(l) =>
          match FindById(cat.factions, l.data.faction)
          case None => Err(LeaderFactionMissing)
          case Some(f) =>
            if f.name != deckFaction then Err(LeaderFactionMismatch)
            else
              var ids := IdsOf(valid);
              ResolvedIds(cat.cards, cards, valid);
              Ok(Draft(ids, l, deckFaction))
  }

  /** The ids of the matched cards are the ids of exactly the catalog cards
      with a requested name, each once when the catalog's ids are unique. */
  lemma ResolvedIds(catalog: Table<CardData>, cards: seq<string>, valid: Table<CardData>)
    requires valid == MatchNames(catalog, cards)
    ensures Elements(IdsOf(valid)) == (set c | c in catalog && c.name in cards :: c.id)
    ensures UniqueIds(catalog) ==> Distinct(IdsOf(valid))
  {
    var ids := IdsOf(valid);
    forall id | id in ids ensures id in (set c | c in catalog && c.name in cards :: c.id) {
      var i :| 0 <= i < |ids| && ids[i] == id;
      assert valid[i] in valid;
    }
    forall c | c in catalog && c.name in cards ensures c.id in ids {
      var i :| 0 <= i < |valid| && valid[i] == c;
      assert ids[i] == c.id;
    }
    if UniqueIds(catalog) {
      assert UniqueIds(valid);
    }
  }

  /** Two name sets that agree on the requested names filter alike. */
  lemma {:induction false} UnmatchedSameOn(names: seq<string>, a: set<string>, b: set<string>)
    requires forall n :: n in names ==> (n in a <==> n in b)
    ensures Unmatched(names, a) == Unmatched(names, b)
  {
    if names != [] {
      assert forall n :: n in names[1..] ==> n in names;
      UnmatchedSameOn(names[1..], a, b);
    }
  }

  // ------------------------------------------------------------ the rule, stated directly

  /** The main factions of the requested cards, as a set. */
  ghost function MainFactionSet(cat: Catalog, cards: seq<string>): set<string>
  {
    set c | c in cat.cards && c.name in cards && FactionNameOf(cat.factions, c).Some?
                           && !IsNeutral(FactionNameOf(cat.factions, c).value)
          :: FactionNameOf(cat.factions, c).value
  }

  /** The faction a deck with these main factions belongs to. */
  ghost function IntendedFaction(main: set<string>): string
  {
    if |main| == 1 then
      var x :| x in main; x
    else "Neutral"
  }

  /** When a proposal makes a deck: every name is a catalog card and none is
      repeated, at most one main faction, a known leader whose faction record
      exists and is named like the deck's faction (letter case counts). */
  ghost predicate Composable(cat: Catalog, cards: seq<string>, leader: string)
  {
    && (forall n :: n in cards ==> n in Names(cat.cards))
    && Distinct(cards)
    && |MainFactionSet(cat, cards)| <= 1
    && leader in Names(cat.leaders)
    && var l := FindByName(cat.leaders, leader).value;
       var f := FindById(cat.factions, l.data.faction);
       f.Some? && f.value.name == IntendedFaction(MainFactionSet(cat, cards))
  }

  /** A duplicate-free list and a set with the same elements name the same
      deck faction. */
  lemma DeckFactionAgrees(main: seq<string>, s: set<string>)
    requires Elements(main) == s && Distinct(main)
    ensures |main| == |s|
    ensures DeckFaction(main) == IntendedFaction(s)
  {
    ElementsCard(main);
    if |main| == 1 {
      assert s == {main[0]};
    }
  }

  /** The computed main-faction list holds exactly the main-faction set. */
  lemma MainFactionsAreTheSet(cat: Catalog, cards: seq<string>)
    ensures Elements(MainFactions(cat.factions, MatchNames(cat.cards, cards))) == MainFactionSet(cat, cards)
  {
    var main := MainFactions(cat.factions, MatchNames(cat.cards, cards));
    var s := MainFactionSet(cat, cards);
    forall x | x in main ensures x in s {
      var c :| c in MatchNames(cat.cards, cards) && FactionNameOf(cat.factions, c) == Some(x);
      assert c in cat.cards && c.name in cards;
    }
    forall x | x in s ensures x in main {
      var c :| c in cat.cards && c.name in cards && FactionNameOf(cat.factions, c).Some?
               && !IsNeutral(FactionNameOf(cat.factions, c).value) && x == FactionNameOf(cat.factions, c).value;
      assert c in MatchNames(cat.cards, cards);
    }
  }

  /** The validator accepts exactly the composable proposals, on a catalog
      whose card names are unique. */
  lemma ValidateAcceptsComposable(cat: Catalog, cards: seq<string>, leader: string)
    requires Valid(cat)
    ensures Validate(cat, cards, leader).Ok? <==> Composable(cat, cards, leader)
  {
    var valid := MatchNames(cat.cards, cards);
    var main := MainFactions(cat.factions, valid);
    var s := MainFactionSet(cat, cards);
    MatchAll(cat.cards, cards);
    MainFactionsAreTheSet(cat, cards);
    DeckFactionAgrees(main, s);
    var known := forall n :: n in cards ==> n in Names(cat.cards);
    assert |valid| == |cards| <==> known && Distinct(cards);
    if |valid| == |cards| && |main| <= 1 && leader in Names(cat.leaders) {
      var l := FindByName(cat.leaders, leader).value;
      assert Validate(cat, cards, leader).Ok? <==>
        FindById(cat.factions, l.data.faction).Some? && FindById(cat.factions, l.data.faction).value.name == DeckFaction(main);
    }
  }

  /** Repeating a known card name is refused with an empty `invalidCards`
      list: the catalog has one card of that name, so the count falls
      short, yet every name resolves. */
  lemma RepeatedNameHasNoInvalidCards(cat: Catalog, cards: seq<string>, leader: string)
    requires Valid(cat)
    requires forall n :: n in cards ==> n in Names(cat.cards)
    requires !Distinct(cards)
    ensures Validate(cat, cards, leader) == Err(InvalidCards([]))
  {
    MatchAll(cat.cards, cards);
    UnmatchedNone(cards, Names(cat.cards));
  }

  lemma {:induction false} UnmatchedNone(names: seq<string>, known: set<string>)
    requires forall n :: n in names ==> n in known
    ensures Unmatched(names, known) == []
  {
    if names != [] {
      assert names[0] in names;
      assert forall n :: n in names[1..] ==> n in names;
      UnmatchedNone(names[1..], known);
    }
  }

  // ------------------------------------------------------------ a worked example

  const ExampleFactions: Table<Described> :=
    [Entry(1, "Nilfgaard", Described("Southern empire")), Entry(2, "Neutral", Described("Any deck"))]
  const ExampleCards: Table<CardData> :=
    [Entry(10, "Cahir", CardData(1, 5, [], 8, "")), Entry(11, "Dandelion", CardData(2, 5, [], 2, ""))]
  const ExampleLeaders: Table<LeaderData> := [Entry(20, "Emhyr", LeaderData(1, "Draw a card"))]
  const ExampleCatalog: Catalog := Catalog([], ExampleFactions, [], ExampleLeaders, [], ExampleCards)
  const ExampleNames: seq<string> := ["Cahir", "Dandelion"]

  lemma ExampleCardsResolve()
    ensures MatchNames(ExampleCards, ExampleNames) == ExampleCards
  {
    var cards := ExampleCards;
    assert cards[1..][1..] == [];
    assert MatchNames(cards[1..][1..], ExampleNames) == [];
    assert "Dandelion" in ExampleNames;
    assert MatchNames(cards[1..], ExampleNames) == cards[1..];
    assert "Cahir" in ExampleNames;
  }

  lemma ExampleFactionNames()
    ensures FactionNames(ExampleFactions, ExampleCards) == ["Nilfgaard", "Neutral"]
  {
    var factions := ExampleFactions;
    var cards := ExampleCards;
    assert FindById(factions, 1) == Some(factions[0]);
    assert factions[1..][0] == factions[1];
    assert FindById(factions, 2) == Some(factions[1]);
    assert FactionNameOf(factions, cards[0]) == Some("Nilfgaard");
    assert FactionNameOf(factions, cards[1]) == Some("Neutral");
    assert cards[1..][1..] == [];
    assert FactionNames(factions, cards[1..]) == ["Neutral"];
  }

  lemma ExampleMainFaction()
    ensures NonNeutral(Dedup(["Nilfgaard", "Neutral"])) == ["Nilfgaard"]
  {
    var fs := ["Nilfgaard", "Neutral"];
    assert fs[1..][1..] == [];
    assert "Neutral"[1] != "Nilfgaard"[1];
    assert DedupFrom(fs[1..][1..], {"Nilfgaard", "Neutral"}) == [];
    assert DedupFrom(fs[1..], {"Nilfgaard"}) == ["Neutral"];
    assert DedupFrom(fs, {}) == ["Nilfgaard"] + DedupFrom(fs[1..], {} + {"Nilfgaard"});
    assert Dedup(fs) == fs;
    assert ToLower("Neutral") == "neutral";
    assert ToLower("Nilfgaard")[1] == 'i';
    assert NonNeutral(fs[1..]) == [];
  }

  /** One main faction mixed with Neutral cards makes a deck of that
      faction, provided the leader belongs to it: the cards resolve to their
      ids in catalog order and the leader to its record. */
  lemma OneFactionWithNeutralScenario()
    ensures Validate(ExampleCatalog, ExampleNames, "Emhyr") == Ok(Draft([10, 11], ExampleLeaders[0], "Nilfgaard"))
  {
    var cat := ExampleCatalog;
    ExampleCardsResolve();
    ExampleFactionNames();
    ExampleMainFaction();
    ExampleLookups();
    var valid := MatchNames(cat.cards, ExampleNames);
    assert valid == ExampleCards;
    assert MainFactions(cat.factions, valid) == ["Nilfgaard"];
    assert DeckFaction(["Nilfgaard"]) == "Nilfgaard";
  }

  lemma ExampleLookups()
    ensures FindByName(ExampleLeaders, "Emhyr") == Some(ExampleLeaders[0])
    ensures FindById(ExampleFactions, 1) == Some(ExampleFactions[0])
    ensures IdsOf(ExampleCards) == [10, 11]
  {
  }

  // ------------------------------------------------------------ deck records

  /** The deck with this id, if the caller owns it. */
  function FindOwned(decks: Table<DeckData>, id: Id, owner: Id): (r: Option<Entry<DeckData>>)
    ensures r.None? <==> !exists d :: d in decks && d.id == id && d.data.owner == owner
    ensures r.Some? ==> r.value in decks && r.value.id == id && r.value.data.owner == owner
  {
    if decks == [] then None
    else if decks[0].id == id && decks[0].data.owner == owner then Some(decks[0])
    else
      assert forall d :: d in decks <==> d == decks[0] || d in decks[1..];
      FindOwned(decks[1..], id, owner)
  }

  /** The owner has a deck called `name`, other than `except`. */
  predicate NameClash(decks: Table<DeckData>, name: string, owner: Id, except: Option<Id>)
  {
    exists d :: d in decks && d.name == name && d.data.owner == owner && (except.None? || d.id != except.value)
  }

  /** The table invariant: unique ids, and no owner has two decks with one name. */
  ghost predicate DecksValid(decks: Table<DeckData>)
  {
    && UniqueIds(decks)
    && forall a, b :: a in decks && b in decks && a.data.owner == b.data.owner && a.name == b.name ==> a.id == b.id
  }

  // ------------------------------------------------------------ handlers

  /** `createDecks`. The body schema is not defined in the source; `verdict`
      stands for its outcome, `Some(message)` for a refused body. */
  function CreateDeck(cat: Catalog, decks: Table<DeckData>, owner: Id, verdict: Option<string>,
                      name: string, cards: seq<string>, leader: string): (r: DeckStep<Receipt>)
    ensures r.reply.Rejected? ==> r.after == decks
    ensures verdict.Some? ==> r.reply == Rejected(InvalidBody(verdict.value))
    ensures verdict.None? && NameClash(decks, name, owner, None) ==> r.reply == Rejected(DeckNameTaken)
    ensures verdict.None? && !NameClash(decks, name, owner, None) && Validate(cat, cards, leader).Err?
      ==> r.reply == Rejected(Validate(cat, cards, leader).reason)
    ensures r.reply.Accepted? <==> verdict.None? && !NameClash(decks, name, owner, None) && Validate(cat, cards, leader).Ok?
    ensures r.reply.Accepted? ==>
      && r.reply.status == HttpCreated
      && var d := r.reply.value.deck;
      && var draft := Validate(cat, cards, leader).value;
      && r.after == decks + [d]
      && d.id !in Ids(decks) && d.name == name
      && d.data == DeckData(owner, draft.cardIds, draft.leader.id, None)
      && r.reply.value.leaderName == leader
    ensures DecksValid(decks) ==> DecksValid(r.after)
  {
    if verdict.Some? then DeckStep(decks, Rejected(InvalidBody(verdict.value)))
    else if NameClash(decks, name, owner, None) then DeckStep(decks, Rejected(DeckNameTaken))
    else
      match Validate(cat, cards, leader)
      case Err(reason) => DeckStep(decks, Rejected(reason))
      case Ok(draft) =>
        var after := Insert(decks, name, DeckData(owner, draft.cardIds, draft.leader.id, None));
        var d := after[|decks|];
        assert after == decks + [d];
        DeckStep(after, Accepted(HttpCreated, Receipt(d, draft.leader.name)))
  }

  /** `createDecks` as the source wires it: `deckValidation` is imported from
      a module that does not export it, so the call throws, the handler's
      own error path throws again reading the missing details, and the outer
      handler answers 500 before any deck is looked at. */
  function CreateDeckAsWritten(decks: Table<DeckData>, owner: Id, name: string, cards: seq<string>, leader: string): (r: DeckStep<Receipt>)
    ensures r.after == decks
    ensures r.reply.Status() == HttpServerError
  {
    DeckStep(decks, Rejected(ValidatorMissing))
  }

  /** `updateDecks` as the source wires it: past the ownership check the
      same missing schema makes every request end in 500. */
  function UpdateDeckAsWritten(decks: Table<DeckData>, owner: Id, id: Id): (r: DeckStep<Entry<DeckData>>)
    ensures r.after == decks
    ensures r.reply.Status() == (if FindOwned(decks, id, owner).None? then HttpNotFound else HttpServerError)
  {
    if FindOwned(decks, id, owner).None? then DeckStep(decks, Rejected(DeckNotFound))
    else DeckStep(decks, Rejected(ValidatorMissing))
  }

  /** A proposal the deck rules accept is still refused with 500 by the
      handler as written, while the corrected handler creates the deck. */
  lemma MissingSchemaRefusesGoodDeck()
    ensures CreateDeck(ExampleCatalog, [], 7, None, "Empire", ExampleNames, "Emhyr").reply.Accepted?
    ensures CreateDeckAsWritten([], 7, "Empire", ExampleNames, "Emhyr").reply.Status() == HttpServerError
  {
    OneFactionWithNeutralScenario();
  }

  /** `updateDecks`: a deck the caller does not own is 404 before anything
      else; then the body verdict; the name clash is checked only when the
      name changes and ignores the deck itself; then the validator; on
      success name, cards and leader are replaced, the card count stored,
      and the stored deck (leader as an id) is the answer. */
  function UpdateDeck(cat: Catalog, decks: Table<DeckData>, owner: Id, id: Id, verdict: Option<string>,
                      name: string, cards: seq<string>, leader: string): (r: DeckStep<Entry<DeckData>>)
    ensures r.reply.Rejected? ==> r.after == decks
    ensures FindOwned(decks, id, owner).None? ==> r.reply == Rejected(DeckNotFound)
    ensures FindOwned(decks, id, owner).Some? && verdict.Some? ==> r.reply == Rejected(InvalidBody(verdict.value))
    ensures r.reply == Rejected(DeckNameTaken) <==>
      && FindOwned(decks, id, owner).Some? && verdict.None?
      && name != FindOwned(decks, id, owner).value.name && NameClash(decks, name, owner, Some(id))
    ensures
      && FindOwned(decks, id, owner).Some? && verdict.None?
      && (name == FindOwned(decks, id, owner).value.name || !NameClash(decks, name, owner, Some(id)))
      ==> && (Validate(cat, cards, leader).Err? ==> r.reply == Rejected(Validate(cat, cards, leader).reason))
          && (Validate(cat, cards, leader).Ok? ==> r.reply.Accepted?)
    ensures r.reply.Accepted? ==>
      && FindOwned(decks, id, owner).Some? && verdict.None?
      && Validate(cat, cards, leader).Ok?
      && r.reply.status == HttpOk
      && var draft := Validate(cat, cards, leader).value;
      && r.reply.value == Entry(id, name, DeckData(owner, draft.cardIds, draft.leader.id, Some(|cards|)))
      && r.after == Overwrite(decks, id, name, r.reply.value.data)
    ensures DecksValid(decks) ==> DecksValid(r.after)
  {
    match FindOwned(decks, id, owner)
    case None => DeckStep(decks, Rejected(DeckNotFound))
    case Some(current) =>
      if verdict.Some? then DeckStep(decks, Rejected(InvalidBody(verdict.value)))
      else if name != current.name && NameClash(decks, name, owner, Some(id)) then DeckStep(decks, Rejected(DeckNameTaken))
      else
        match Validate(cat, cards, leader)
        case Err(reason) => DeckStep(decks, Rejected(reason))
        case Ok(draft) =>
          var data := DeckData(owner, draft.cardIds, draft.leader.id, Some(|cards|));
          var after := Overwrite(decks, id, name, data);
          RenameKeepsDecksValid(decks, current, name, data);
          DeckStep(after, Accepted(HttpOk, Entry(id, name, data)))
  }

  /** Overwriting an owned deck with a name its owner does not use elsewhere
      (or its own name) keeps the table valid. */
  lemma RenameKeepsDecksValid(decks: Table<DeckData>, current: Entry<DeckData>, name: string, data: DeckData)
    requires current in decks && data.owner == current.data.owner
    requires name == current.name || !NameClash(decks, name, data.owner, Some(current.id))
    ensures DecksValid(decks) ==> DecksValid(Overwrite(decks, current.id, name, data))
  {
    if DecksValid(decks) {
      var after := Overwrite(decks, current.id, name, data);
      assert current.id in Ids(decks);
      OverwriteIds(decks, current.id, name, data);
      OverwriteMembers(decks, current.id, name, data);
      OwnerNamesAfterRename(decks, after, current, name, data);
    }
  }

  /** The per-owner half of the rename rule, on the records before and after. */
  lemma OwnerNamesAfterRename(decks: Table<DeckData>, after: Table<DeckData>, current: Entry<DeckData>, name: string, data: DeckData)
    requires DecksValid(decks) && current in decks && data.owner == current.data.owner
    requires name == current.name || !NameClash(decks, name, data.owner, Some(current.id))
    requires forall e :: e in after <==> (e in decks && e.id != current.id) || e == Entry(current.id, name, data)
    ensures forall a, b :: a in after && b in after && a.data.owner == b.data.owner && a.name == b.name ==> a.id == b.id
  {
  }

  /** `deleteDecks`: 404 unless the caller owns the deck, else exactly that
      deck goes. */
  function DeleteDeck(decks: Table<DeckData>, owner: Id, id: Id): (r: DeckStep<Entry<DeckData>>)
    ensures FindOwned(decks, id, owner).None? ==> r == DeckStep(decks, Rejected(DeckNotFound))
    ensures FindOwned(decks, id, owner).Some? ==>
      && r.reply == Accepted(HttpOk, FindOwned(decks, id, owner).value)
      && forall d :: d in r.after <==> d in decks && d.id != id
    ensures DecksValid(decks) && FindOwned(decks, id, owner).Some? ==> |r.after| == |decks| - 1
    ensures DecksValid(decks) ==> DecksValid(r.after)
  {
    match FindOwned(decks, id, owner)
    case None => DeckStep(decks, Rejected(DeckNotFound))
    case Some(d) =>
      assert id in Ids(decks);
      RemoveUnique(decks, id);
      RemoveCount(decks, id);
      DeckStep(Remove(decks, id), Accepted(HttpOk, d))
  }
}

=== FILE: guard.dfy ===
/** The `cekAdmin` middleware guarding the catalog's write routes. */
module AdminGuard {
  import opened Common

  /** The authenticated caller the token check attached to the request. */
  datatype Caller = Caller(id: Id, role: Option<string>)

  /** The middleware either passes the request on or answers it itself. */
  datatype Verdict = Next | Deny(status: Status)

  /** No caller: 401. A caller whose role is not exactly "admin": 403.
      Otherwise the request proceeds and nothing is answered. */
  function CekAdmin(caller: Option<Caller>): (v: Verdict)
    ensures v == Deny(HttpUnauthorized) <==> caller.None?
    ensures v == Deny(HttpForbidden) <==> caller.Some? && caller.value.role != Some("admin")
    ensures v == Next <==> caller.Some? && caller.value.role == Some("admin")
  {
    match caller
    case None => Deny(HttpUnauthorized)
    case Some(c) => if c.role != Some("admin") then Deny(HttpForbidden) else Next
  }

  /** Every request gets exactly one of 401, 403 or passing on. */
  lemma ExactlyOneOutcome(caller: Option<Caller>)
    ensures var v := CekAdmin(caller);
      (if v == Deny(HttpUnauthorized) then 1 else 0) + (if v == Deny(HttpForbidden) then 1 else 0)
        + (if v == Next then 1 else 0) == 1
  {
  }

  /** The role comparison is exact: a differently cased role is refused. */
  lemma RoleIsCaseSensitive(id: Id)
    ensures CekAdmin(Some(Caller(id, Some("Admin")))) == Deny(HttpForbidden)
    ensures CekAdmin(Some(Caller(id, None))) == Deny(HttpForbidden)
  {
  }
}

=== FILE: schemas.dfy ===
/** The request-body schemas (Joi objects) of the catalog and account
    endpoints, as functions from a form to the list of violated rules.
    Callers validate with `abortEarly: false`, so every violated rule is
    listed, in schema key order, and the reply joins their messages with
    ", ". A field the client did not send is `None`. */
module Schemas {
  import opened Common

  /** One rule of a field schema. */
  datatype Rule =
    | Required                       // any.required: the field is missing
    | Empty                          // string.empty: the field is ""
    | TooShort(minLen: nat)          // string.min
    | TooLong(maxLen: nat)           // string.max
    | NotAlphanum                    // string.alphanum
    | NotEmail                       // string.email
    | NotAllowed(allowed: seq<string>) // any.only
    | TooMany(maxItems: nat)         // array.max
    | Below(min: nat)                // number.min
    | Above(max: nat)                // number.max

  /** A violated rule of the field `key`, whose messages use `caption`. */
  datatype Violation = Violation(key: string, caption: string, rule: Rule)

  /** A string field: length bounds and an optional alphanumeric rule. */
  datatype TextSpec = TextSpec(key: string, caption: string, minLen: nat, maxLen: Option<nat>, alphanum: bool)

  // ---------------------------------------------------------------- messages

  function Digit(d: nat): char
    requires d < 10
  {
    "0123456789"[d]
  }

  /** Decimal rendering of a natural number. */
  function Decimal(n: nat): string
  {
    if n < 10 then [Digit(n)] else Decimal(n / 10) + [Digit(n % 10)]
  }

  function Quoted(words: seq<string>): string
  {
    if |words| == 0 then ""
    else if |words| == 1 then "'" + words[0] + "'"
    else "'" + words[0] + "' atau " + Quoted(words[1..])
  }

  /** The message a violation is reported with: the schema's own message
      where it defines one, Joi's default text for an empty string. */
  function Message(v: Violation): string
  {
    match v.rule
    case Required => v.caption + " tidak boleh kosong"
    case Empty => "\"" + v.key + "\" is not allowed to be empty"
    case TooShort(n) => v.caption + " minimal " + Decimal(n) + " karakter"
    case TooLong(n) => v.caption + " maksimal " + Decimal(n) + " karakter"
    case NotAlphanum => v.caption + " hanya boleh alfanumerik"
    case NotEmail => v.caption + " tidak valid"
    case NotAllowed(ws) => v.caption + " harus " + Quoted(ws)
    case TooMany(n) => v.caption + " maksimal hanya boleh " + Decimal(n)
    case Below(n) => v.caption + " minimal " + Decimal(n)
    case Above(n) => v.caption + " maksimal " + Decimal(n)
  }

  function Join(parts: seq<string>, sep: string): string
  {
    if |parts| == 0 then ""
    else if |parts| == 1 then parts[0]
    else parts[0] + sep + Join(parts[1..], sep)
  }

  /** Where the `i`-th part starts when every earlier part is laid out
      followed by one separator. */
  function Offset(parts: seq<string>, sep: string, i: nat): nat
    requires i <= |parts|
  {
    if i == 0 then 0 else Offset(parts, sep, i - 1) + |parts[i - 1]| + |sep|
  }

  /** `part` occurs in `s` starting at position `at`. */
  predicate PlacedAt(s: string, part: string, at: int)
  {
    0 <= at && at + |part| <= |s| && s[at..at + |part|] == part
  }

  lemma PlacedAfter(prefix: string, s: string, part: string, at: int)
    requires PlacedAt(s, part, at)
    ensures PlacedAt(prefix + s, part, |prefix| + at)
  {
    assert (prefix + s)[|prefix| + at..|prefix| + at + |part|] == s[at..at + |part|];
  }

  lemma PlacedBefore(s: string, suffix: string, part: string, at: int)
    requires PlacedAt(s, part, at)
    ensures PlacedAt(s + suffix, part, at)
  {
    assert (s + suffix)[at..at + |part|] == s[at..at + |part|];
  }

  /** Dropping the first part moves every later offset back by that part
      and one separator. */
  lemma {:induction false} OffsetTail(parts: seq<string>, sep: string, i: nat)
    requires i < |parts|
    ensures Offset(parts, sep, i + 1) == |parts[0]| + |sep| + Offset(parts[1..], sep, i)
  {
    if i > 0 {
      OffsetTail(parts, sep, i - 1);
      assert parts[1..][i - 1] == parts[i];
    }
  }

  lemma {:induction false} JoinLength(parts: seq<string>, sep: string)
    requires |parts| > 0
    ensures |Join(parts, sep)| + |sep| == Offset(parts, sep, |parts|)
  {
    if |parts| > 1 {
      JoinLength(parts[1..], sep);
      OffsetTail(parts, sep, |parts| - 1);
    }
  }

  lemma {:induction false} JoinPartAt(parts: seq<string>, sep: string, i: nat)
    requires i < |parts|
    ensures PlacedAt(Join(parts, sep), parts[i], Offset(parts, sep, i))
  {
    var head := parts[0] + sep;
    if i == 0 {
      assert parts[0][0..|parts[0]|] == parts[0];
      if |parts| > 1 {
        var j := Join(parts[1..], sep);
        PlacedBefore(parts[0], sep + j, parts[0], 0);
        assert parts[0] + (sep + j) == head + j;
      }
    } else {
      var rest := parts[1..];
      JoinPartAt(rest, sep, i - 1);
      OffsetTail(parts, sep, i - 1);
      assert rest[i - 1] == parts[i];
      PlacedAfter(head, Join(rest, sep), rest[i - 1], Offset(rest, sep, i - 1));
    }
  }

  lemma {:induction false} JoinSepAt(parts: seq<string>, sep: string, i: nat)
    requires i + 1 < |parts|
    ensures PlacedAt(Join(parts, sep), sep, Offset(parts, sep, i) + |parts[i]|)
  {
    var rest := parts[1..];
    var j := Join(rest, sep);
    var head := parts[0] + sep;
    assert Join(parts, sep) == parts[0] + (sep + j);
    if i == 0 {
      assert sep[0..|sep|] == sep;
      PlacedBefore(sep, j, sep, 0);
      PlacedAfter(parts[0], sep + j, sep, 0);
    } else {
      JoinSepAt(rest, sep, i - 1);
      OffsetTail(parts, sep, i - 1);
      assert rest[i - 1] == parts[i];
      assert parts[0] + (sep + j) == head + j;
      PlacedAfter(head, j, sep, Offset(rest, sep, i - 1) + |rest[i - 1]|);
    }
  }

  /** The `i`-th part sits at its offset in `text`. */
  ghost predicate PartAt(text: string, parts: seq<string>, sep: string, i: nat)
    requires i < |parts|
  {
    PlacedAt(text, parts[i], Offset(parts, sep, i))
  }

  /** A separator follows the `i`-th part in `text`. */
  ghost predicate SepAfter(text: string, parts: seq<string>, sep: string, i: nat)
    requires i < |parts|
  {
    PlacedAt(text, sep, Offset(parts, sep, i) + |parts[i]|)
  }

  /** `text` is `parts` laid out in order with `sep` between neighbours:
      each part at its offset, one separator after every part but the last,
      and nothing else. */
  ghost predicate LaidOut(text: string, parts: seq<string>, sep: string)
  {
    && (|parts| == 0 ==> text == "")
    && (|parts| > 0 ==> |text| + |sep| == Offset(parts, sep, |parts|))
    && (forall i :: 0 <= i < |parts| ==> PartAt(text, parts, sep, i))
    && (forall i :: 0 <= i < |parts| - 1 ==> SepAfter(text, parts, sep, i))
  }

  /** Joining lays the parts out. */
  lemma {:induction false} JoinLayout(parts: seq<string>, sep: string)
    ensures LaidOut(Join(parts, sep), parts, sep)
  {
    if |parts| > 0 {
      JoinLength(parts, sep);
    }
    forall i | 0 <= i < |parts| ensures PartAt(Join(parts, sep), parts, sep, i) {
      JoinPartAt(parts, sep, i);
    }
    forall i | 0 <= i < |parts| - 1 ensures SepAfter(Join(parts, sep), parts, sep, i) {
      JoinSepAt(parts, sep, i);
    }
  }

  lemma PlacedDrop(s: string, k: nat, part: string, at: nat)
    requires k <= |s| && PlacedAt(s, part, k + at)
    ensures PlacedAt(s[k..], part, at)
  {
    assert s[k..][at..at + |part|] == s[k + at..k + at + |part|];
  }

  /** A layout of two or more parts starts with the first part and one
      separator. */
  lemma LaidOutHead(text: string, parts: seq<string>, sep: string)
    requires LaidOut(text, parts, sep) && |parts| > 1
    ensures |parts[0]| + |sep| <= |text|
    ensures text[..|parts[0]|] == parts[0] && text[|parts[0]|..|parts[0]| + |sep|] == sep
  {
    assert PartAt(text, parts, sep, 0);
    assert SepAfter(text, parts, sep, 0);
  }

  lemma LaidOutTailPart(text: string, parts: seq<string>, sep: string, i: nat)
    requires LaidOut(text, parts, sep) && i + 1 < |parts|
    requires |parts[0]| + |sep| <= |text|
    ensures PartAt(text[|parts[0]| + |sep|..], parts[1..], sep, i)
  {
    OffsetTail(parts, sep, i);
    assert PartAt(text, parts, sep, i + 1);
    PlacedDrop(text, |parts[0]| + |sep|, parts[i + 1], Offset(parts[1..], sep, i));
  }

  lemma LaidOutTailSep(text: string, parts: seq<string>, sep: string, i: nat)
    requires LaidOut(text, parts, sep) && i + 2 < |parts|
    requires |parts[0]| + |sep| <= |text|
    ensures SepAfter(text[|parts[0]| + |sep|..], parts[1..], sep, i)
  {
    OffsetTail(parts, sep, i);
    assert SepAfter(text, parts, sep, i + 1);
    PlacedDrop(text, |parts[0]| + |sep|, sep, Offset(parts[1..], sep, i) + |parts[i + 1]|);
  }

  /** What follows the first part and its separator is laid out from the
      second part on. */
  lemma LaidOutTail(text: string, parts: seq<string>, sep: string)
    requires LaidOut(text, parts, sep) && |parts| > 1
    requires |parts[0]| + |sep| <= |text|
    ensures LaidOut(text[|parts[0]| + |sep|..], parts[1..], sep)
  {
    var rest := parts[1..];
    var tail := text[|parts[0]| + |sep|..];
    forall i | 0 <= i < |rest| ensures PartAt(tail, rest, sep, i) {
      LaidOutTailPart(text, parts, sep, i);
    }
    forall i | 0 <= i < |rest| - 1 ensures SepAfter(tail, rest, sep, i) {
      LaidOutTailSep(text, parts, sep, i);
    }
    OffsetTail(parts, sep, |rest|);
  }

  /** The layout pins the text down: the only text with it is the join. */
  lemma {:induction false} LaidOutIsJoin(text: string, parts: seq<string>, sep: string)
    requires LaidOut(text, parts, sep)
    ensures text == Join(parts, sep)
  {
    if |parts| == 1 {
      assert PartAt(text, parts, sep, 0);
      assert text == text[0..|parts[0]|];
    } else if |parts| > 1 {
      var k := |parts[0]| + |sep|;
      LaidOutHead(text, parts, sep);
      LaidOutTail(text, parts, sep);
      LaidOutIsJoin(text[k..], parts[1..], sep);
      assert text == text[..|parts[0]|] + text[|parts[0]|..k] + text[k..];
    }
  }

  function Messages(vs: seq<Violation>): (ms: seq<string>)
    ensures |ms| == |vs|
    ensures forall i :: 0 <= i < |vs| ==> ms[i] == Message(vs[i])
  {
    if |vs| == 0 then [] else [Message(vs[0])] + Messages(vs[1..])
  }

  /** The handlers' reaction to a schema check: no refusal when nothing is
      violated, otherwise a 400 whose message lists every violation. */
  function Check(vs: seq<Violation>): (r: Option<Reason>)
    ensures r.None? <==> vs == []
    ensures r.Some? ==> r.value == InvalidBody(Join(Messages(vs), ", ")) && StatusOf(r.value) == HttpBadRequest
    ensures r.Some? ==> LaidOut(r.value.message, Messages(vs), Separator)
  {
    JoinLayout(Messages(vs), Separator);
    if vs == [] then None else Some(InvalidBody(Join(Messages(vs), Separator)))
  }

  /** What the handlers put between two messages. */
  const Separator: string := ", "

  // ---------------------------------------------------------------- field rules

  predicate IsAlnumChar(c: char)
  {
    ('a' <= c <= 'z') || ('A' <= c <= 'Z') || ('0' <= c <= '9')
  }

  predicate IsAlnum(s: string)
  {
    forall i :: 0 <= i < |s| ==> IsAlnumChar(s[i])
  }

  /** A string field under `Joi.string()` checked against its field description, rule by rule. */
  function TextViolations(spec: TextSpec, v: Option<string>): seq<Violation>
  {
    match v
    case None => [Violation(spec.key, spec.caption, Required)]
    case Some(s) =>
      if s == "" then [Violation(spec.key, spec.caption, Empty)]
      else
        (if spec.alphanum && !IsAlnum(s) then [Violation(spec.key, spec.caption, NotAlphanum)] else [])
        + (if |s| < spec.minLen then [Violation(spec.key, spec.caption, TooShort(spec.minLen))] else [])
        + (match spec.maxLen
           case Some(m) => if |s| > m then [Violation(spec.key, spec.caption, TooLong(m))] else []
           case None => [])
  }

  /** What a field description admits, stated directly. */
  ghost predicate TextOk(spec: TextSpec, v: Option<string>)
  {
    && v.Some?
    && |v.value| > 0
    && spec.minLen <= |v.value|
    && (spec.maxLen.Some? ==> |v.value| <= spec.maxLen.value)
    && (spec.alphanum ==> forall c :: c in v.value ==> IsAlnumChar(c))
  }

  lemma TextViolationsSound(spec: TextSpec, v: Option<string>)
    ensures TextViolations(spec, v) == [] <==> TextOk(spec, v)
    ensures forall x :: x in TextViolations(spec, v) ==> x.key == spec.key
  {
    if v.Some? && spec.alphanum && !IsAlnum(v.value) {
      var i :| 0 <= i < |v.value| && !IsAlnumChar(v.value[i]);
      assert v.value[i] in v.value;
    }
  }

  /** `Joi.string().email().required()`, the email-shape test being `isEmail`. */
  function EmailViolations(key: string, caption: string, isEmail: string -> bool, v: Option<string>): seq<Violation>
  {
    match v
    case None => [Violation(key, caption, Required)]
    case Some(s) =>
      if s == "" then [Violation(key, caption, Empty)]
      else if !isEmail(s) then [Violation(key, caption, NotEmail)]
      else []
  }

  /** `Joi.string().valid(...).required()`. Joi tests the allowed values
      before the string type, so an empty string breaks both rules. */
  function ChoiceViolations(key: string, caption: string, allowed: seq<string>, v: Option<string>): seq<Violation>
  {
    match v
    case None => [Violation(key, caption, Required)]
    case Some(s) =>
      if s in allowed then []
      else if s == "" then [Violation(key, caption, NotAllowed(allowed)), Violation(key, caption, Empty)]
      else [Violation(key, caption, NotAllowed(allowed))]
  }

  /** `Joi.number().min(lo).max(hi).required()` over integers. */
  function RangeViolations(key: string, caption: string, lo: nat, hi: nat, v: Option<int>): seq<Violation>
  {
    match v
    case None => [Violation(key, caption, Required)]
    case Some(n) =>
      if n < lo then [Violation(key, caption, Below(lo))]
      else if n > hi then [Violation(key, caption, Above(hi))]
      else []
  }

  /** `Joi.array().items(Joi.string()).max(hi).optional()`. */
  function ListViolations(key: string, caption: string, hi: nat, v: Option<seq<string>>): seq<Violation>
  {
    match v
    case None => []
    case Some(items) => if |items| > hi then [Violation(key, caption, TooMany(hi))] else []
  }

  /** The violations of one field. */
  function Of(vs: seq<Violation>, key: string): seq<Violation>
  {
    if |vs| == 0 then []
    else (if vs[0].key == key then [vs[0]] else []) + Of(vs[1..], key)
  }

  /** Distributes over concatenation. */
  lemma {:induction false} OfAppend(a: seq<Violation>, b: seq<Violation>, key: string)
    ensures Of(a + b, key) == Of(a, key) + Of(b, key)
  {
    if |a| == 0 {
      assert a + b == b;
    } else {
      var head := if a[0].key == key then [a[0]] else [];
      assert (a + b)[0] == a[0];
      assert (a + b)[1..] == a[1..] + b;
      OfAppend(a[1..], b, key);
      assert Of(a + b, key) == head + (Of(a[1..], key) + Of(b, key));
      assert Of(a, key) == head + Of(a[1..], key);
    }
  }

  /** The concatenation of per-field violation lists. */
  function Flatten(parts: seq<seq<Violation>>): seq<Violation>
  {
    if |parts| == 0 then [] else parts[0] + Flatten(parts[1..])
  }

  /** When each part holds the violations of one field, a field is free of
      violations in the whole list exactly when all of its parts are empty;
      and the whole list is empty exactly when every part is. */
  lemma {:induction false} OfFlatten(parts: seq<seq<Violation>>, keys: seq<string>, k: string)
    requires |parts| == |keys|
    requires forall j, x :: 0 <= j < |parts| && x in parts[j] ==> x.key == keys[j]
    ensures Of(Flatten(parts), k) == [] <==> forall j :: 0 <= j < |parts| && keys[j] == k ==> parts[j] == []
    ensures Flatten(parts) == [] <==> forall j :: 0 <= j < |parts| ==> parts[j] == []
  {
    if |parts| > 0 {
      var rest := parts[1..];
      var ks := keys[1..];
      forall j: int, x: Violation | 0 <= j < |rest| && x in rest[j] ensures x.key == ks[j] {
        assert rest[j] == parts[j + 1] && ks[j] == keys[j + 1];
      }
      OfFlatten(rest, ks, k);
      assert Flatten(parts) == parts[0] + Flatten(rest);
      OfAppend(parts[0], Flatten(rest), k);
      OfOneKey(parts[0], keys[0], k);
      forall j | 0 < j < |parts| ensures parts[j] == rest[j - 1] && keys[j] == ks[j - 1] { }
    }
  }

  /** The field at position `i`, whose key no other part uses, is free of
      violations in the whole list exactly when its own part is empty. */
  lemma OfFlattenAt(parts: seq<seq<Violation>>, keys: seq<string>, i: nat)
    requires |parts| == |keys| && i < |keys|
    requires forall j, x :: 0 <= j < |parts| && x in parts[j] ==> x.key == keys[j]
    requires forall j :: 0 <= j < |keys| && j != i ==> keys[j] != keys[i]
    ensures Of(Flatten(parts), keys[i]) == [] <==> parts[i] == []
  {
    OfFlatten(parts, keys, keys[i]);
  }

  /** A list whose violations all belong to `key` keeps them all for `key`
      and has none for any other key. */
  lemma {:induction false} OfOneKey(vs: seq<Violation>, key: string, k: string)
    requires forall x :: x in vs ==> x.key == key
    ensures Of(vs, k) == if k == key then vs else []
  {
    if |vs| > 0 {
      assert vs[0] in vs;
      assert forall x :: x in vs[1..] ==> x in vs;
      OfOneKey(vs[1..], key, k);
      assert vs == [vs[0]] + vs[1..];
    }
  }

  // ---------------------------------------------------------------- card schema

  datatype CardForm = CardForm(
    name: Option<string>,
    faction: Option<string>,
    cardType: Option<string>,     // the body key `type`
    ability: Option<seq<string>>,
    power: Option<int>)

  const CardName := TextSpec("name", "Nama kartu", 3, Some(50), false)
  const CardFaction := TextSpec("faction", "Faction", 0, None, false)
  const CardType := TextSpec("type", "Tipe", 0, None, false)

  /** The card schema's fields in key order, each with its violations. */
  function CardParts(f: CardForm): seq<seq<Violation>>
  {
    [ TextViolations(CardName, f.name),
      TextViolations(CardFaction, f.faction),
      TextViolations(CardType, f.cardType),
      ListViolations("ability", "Ability", 2, f.ability),
      RangeViolations("power", "Power", 0, 20, f.power) ]
  }

  function CardViolations(f: CardForm): seq<Violation>
  {
    Flatten(CardParts(f))
  }

  /** The card schema in plain terms: a name of 3 to 50 characters, a
      non-empty faction and type, at most two abilities, power in [0, 20]. */
  ghost predicate CardFormOk(f: CardForm)
  {
    && f.name.Some? && 3 <= |f.name.value| <= 50
    && f.faction.Some? && f.faction.value != ""
    && f.cardType.Some? && f.cardType.value != ""
    && (f.ability.Some? ==> |f.ability.value| <= 2)
    && f.power.Some? && 0 <= f.power.value <= 20
  }

  /** Each part of the card schema is empty exactly when its field is fine. */
  lemma CardPartsSound(f: CardForm)
    ensures CardParts(f)[0] == [] <==> (f.name.Some? && 3 <= |f.name.value| <= 50)
    ensures CardParts(f)[1] == [] <==> (f.faction.Some? && f.faction.value != "")
    ensures CardParts(f)[2] == [] <==> (f.cardType.Some? && f.cardType.value != "")
    ensures CardParts(f)[3] == [] <==> (f.ability.Some? ==> |f.ability.value| <= 2)
    ensures CardParts(f)[4] == [] <==> (f.power.Some? && 0 <= f.power.value <= 20)
    ensures forall j, x :: 0 <= j < 5 && x in CardParts(f)[j] ==> x.key == CardKeys[j]
  {
    TextViolationsSound(CardName, f.name);
    TextViolationsSound(CardFaction, f.faction);
    TextViolationsSound(CardType, f.cardType);
  }

  /** The card schema accepts exactly the well-formed cards. */
  lemma CardSchemaSound(f: CardForm)
    ensures CardViolations(f) == [] <==> CardFormOk(f)
  {
    CardPartsSound(f);
    OfFlatten(CardParts(f), ["name", "faction", "type", "ability", "power"], "name");
  }

  const CardKeys: seq<string> := ["name", "faction", "type", "ability", "power"]

  /** The rule of the card schema's `i`-th field, in key order. */
  ghost predicate CardFieldOk(f: CardForm, i: nat)
  {
    match i
    case 0 => f.name.Some? && 3 <= |f.name.value| <= 50
    case 1 => f.faction.Some? && f.faction.value != ""
    case 2 => f.cardType.Some? && f.cardType.value != ""
    case 3 => f.ability.Some? ==> |f.ability.value| <= 2
    case _ => f.power.Some? && 0 <= f.power.value <= 20
  }

  /** The card schema reports every field that breaks its rule under that
      field's key, whatever the other fields hold. */
  lemma CardSchemaReportsEach(f: CardForm, i: nat)
    requires i < |CardKeys|
    ensures Of(CardViolations(f), CardKeys[i]) == [] <==> CardFieldOk(f, i)
  {
    CardPartsSound(f);
    CardKeysDistinct();
    OfFlattenAt(CardParts(f), CardKeys, i);
    assert CardFieldOk(f, i) <==> CardParts(f)[i] == [] by {
      if i == 0 {} else if i == 1 {} else if i == 2 {} else if i == 3 {} else {}
    }
  }

  /** The card schema's keys are pairwise different. */
  lemma CardKeysDistinct()
    ensures forall i, j :: 0 <= i < |CardKeys| && 0 <= j < |CardKeys| && i != j ==> CardKeys[i] != CardKeys[j]
  {
    forall i, j | 0 <= i < |CardKeys| && 0 <= j < |CardKeys| && i != j
      ensures CardKeys[i] != CardKeys[j]
    {
      assert CardKeys[i][0] != CardKeys[j][0];
    }
  }

  // ------------------------------------------------ faction, type, ability schemas

  /** The three catalog kinds that carry a name and a description. */
  datatype Kind = FactionKind | TypeKind | AbilityKind

  datatype DescribedForm = DescribedForm(name: Option<string>, description: Option<string>)

  function NameSpec(k: Kind): TextSpec
  {
    match k
    case FactionKind => TextSpec("name", "Nama faksi", 3, Some(50), false)
    case TypeKind => TextSpec("name", "Nama tipe card", 3, Some(50), false)
    case AbilityKind => TextSpec("name", "Nama ability", 3, Some(50), false)
  }

  function DescriptionSpec(k: Kind): TextSpec
  {
    match k
    case FactionKind => TextSpec("description", "Deskripsi faksi", 10, Some(500), false)
    case TypeKind => TextSpec("description", "Deskripsi tipe card", 10, Some(500), false)
    case AbilityKind => TextSpec("description", "Deskripsi ability", 10, Some(500), false)
  }

  function DescribedViolations(k: Kind, f: DescribedForm): seq<Violation>
  {
    TextViolations(NameSpec(k), f.name) + TextViolations(DescriptionSpec(k), f.description)
  }

  /** Each of the three schemas wants a name of 3 to 50 characters and a
      description of 10 to 500, and reports each field on its own. */
  lemma DescribedSchemaSound(k: Kind, f: DescribedForm)
    ensures DescribedViolations(k, f) == [] <==>
      (f.name.Some? && 3 <= |f.name.value| <= 50 && f.description.Some? && 10 <= |f.description.value| <= 500)
    ensures Of(DescribedViolations(k, f), "name") == [] <==> (f.name.Some? && 3 <= |f.name.value| <= 50)
    ensures Of(DescribedViolations(k, f), "description") == [] <==>
      (f.description.Some? && 10 <= |f.description.value| <= 500)
  {
    var a := TextViolations(NameSpec(k), f.name);
    var b := TextViolations(DescriptionSpec(k), f.description);
    TextViolationsSound(NameSpec(k), f.name);
    TextViolationsSound(DescriptionSpec(k), f.description);
    OfAppend(a, b, "name");
    OfAppend(a, b, "description");
    OfOneKey(a, "name", "name");
    OfOneKey(a, "name", "description");
    OfOneKey(b, "description", "name");
    OfOneKey(b, "description", "description");
  }

  // ---------------------------------------------------------------- leader schema

  datatype LeaderForm = LeaderForm(name: Option<string>, faction: Option<string>, effect: Option<string>)

  const LeaderName := TextSpec("name", "Nama leader", 3, Some(50), false)
  const LeaderFaction := TextSpec("faction", "Faction", 0, None, false)
  const LeaderEffect := TextSpec("effect", "Effect", 0, None, false)

  function LeaderViolations(f: LeaderForm): seq<Violation>
  {
    TextViolations(LeaderName, f.name) + TextViolations(LeaderFaction, f.faction) + TextViolations(LeaderEffect, f.effect)
  }

  /** A leader needs a name of 3 to 50 characters and a non-empty faction
      and effect of any length. */
  lemma LeaderSchemaSound(f: LeaderForm)
    ensures LeaderViolations(f) == [] <==>
      (f.name.Some? && 3 <= |f.name.value| <= 50
       && f.faction.Some? && f.faction.value != ""
       && f.effect.Some? && f.effect.value != "")
  {
    TextViolationsSound(LeaderName, f.name);
    TextViolationsSound(LeaderFaction, f.faction);
    TextViolationsSound(LeaderEffect, f.effect);
  }

  // ---------------------------------------------------------------- account schemas

  datatype RegisterForm = RegisterForm(username: Option<string>, email: Option<string>, password: Option<string>, role: Option<string>)

  const Username := TextSpec("username", "Username", 3, Some(30), true)
  const Password := TextSpec("password", "Password", 6, None, false)
  const Roles: seq<string> := ["player", "admin"]

  function RegisterViolations(f: RegisterForm, isEmail: string -> bool): seq<Violation>
  {
    TextViolations(Username, f.username)
    + EmailViolations("email", "Email", isEmail, f.email)
    + TextViolations(Password, f.password)
    + ChoiceViolations("role", "Role", Roles, f.role)
  }

  /** Registration wants an alphanumeric username of 3 to 30 characters, an
      email the email test accepts, a password of at least 6 characters
      (no upper bound) and the role "player" or "admin". */
  lemma RegisterSchemaSound(f: RegisterForm, isEmail: string -> bool)
    ensures RegisterViolations(f, isEmail) == [] <==>
      (&& f.username.Some? && 3 <= |f.username.value| <= 30
       && (forall c :: c in f.username.value ==> IsAlnumChar(c))
       && f.email.Some? && f.email.value != "" && isEmail(f.email.value)
       && f.password.Some? && |f.password.value| >= 6
       && (f.role == Some("player") || f.role == Some("admin")))
  {
    TextViolationsSound(Username, f.username);
    TextViolationsSound(Password, f.password);
  }

  /** Violations of three other fields do not show under a fourth key. */
  lemma OfLastOfFour(a: seq<Violation>, b: seq<Violation>, c: seq<Violation>, d: seq<Violation>, key: string)
    requires forall x :: x in a ==> x.key != key
    requires forall x :: x in b ==> x.key != key
    requires forall x :: x in c ==> x.key != key
    requires forall x :: x in d ==> x.key == key
    ensures Of(a + b + c + d, key) == d
  {
    OfAppend(a + b + c, d, key);
    OfAppend(a + b, c, key);
    OfAppend(a, b, key);
    OfNone(a, key);
    OfNone(b, key);
    OfNone(c, key);
    OfOneKey(d, key, key);
  }

  /** A list with no violation of `key` has none for it. */
  lemma {:induction false} OfNone(vs: seq<Violation>, key: string)
    requires forall x :: x in vs ==> x.key != key
    ensures Of(vs, key) == []
  {
    if |vs| > 0 {
      assert vs[0] in vs;
      assert forall x :: x in vs[1..] ==> x in vs;
      OfNone(vs[1..], key);
    }
  }

  /** An empty role is neither allowed nor a non-empty string: the role is
      reported twice, first as not one of the roles, then as empty. */
  lemma EmptyRoleBreaksTwoRules(f: RegisterForm, isEmail: string -> bool)
    requires f.role == Some("")
    ensures Of(RegisterViolations(f, isEmail), "role")
            == [Violation("role", "Role", NotAllowed(Roles)), Violation("role", "Role", Empty)]
  {
    var a := TextViolations(Username, f.username);
    var b := EmailViolations("email", "Email", isEmail, f.email);
    var c := TextViolations(Password, f.password);
    var d := ChoiceViolations("role", "Role", Roles, f.role);
    assert "" !in Roles;
    assert d == [Violation("role", "Role", NotAllowed(Roles)), Violation("role", "Role", Empty)];
    TextViolationsSound(Username, f.username);
    TextViolationsSound(Password, f.password);
    assert "username" != "role" && "email" != "role" && "password" != "role";
    OfLastOfFour(a, b, c, d, "role");
  }

  datatype LoginForm = LoginForm(username: Option<string>, password: Option<string>)

  const LoginUsername := TextSpec("username", "Username", 0, None, false)
  const LoginPassword := TextSpec("password", "Password", 0, None, false)

  function LoginViolations(f: LoginForm): seq<Violation>
  {
    TextViolations(LoginUsername, f.username) + TextViolations(LoginPassword, f.password)
  }

  /** Login only wants both fields present and non-empty: no length or
      character rule. */
  lemma LoginSchemaSound(f: LoginForm)
    ensures LoginViolations(f) == [] <==>
      (f.username.Some? && f.username.value != "" && f.password.Some? && f.password.value != "")
  {
    TextViolationsSound(LoginUsername, f.username);
    TextViolationsSound(LoginPassword, f.password);
  }
}

=== FILE: store.dfy ===
/** A collection of named records as the handlers see it through the
    database: a sequence in natural order, each record with an id, a name
    and a payload. `findOne` is the first match, `find` keeps the
    collection's order, `create` appends, `deleteOne` drops by id. */
module Store {
  import opened Common

  datatype Entry<+D> = Entry(id: Id, name: string, data: D)

  type Table<D> = seq<Entry<D>>

  function Ids<D(==)>(t: Table<D>): set<Id>
  {
    set e | e in t :: e.id
  }

  function Names<D(==)>(t: Table<D>): set<string>
  {
    set e | e in t :: e.name
  }

  /** Every id names at most one record. */
  ghost predicate UniqueIds<D>(t: Table<D>)
  {
    forall i, j :: 0 <= i < j < |t| ==> t[i].id != t[j].id
  }

  /** Every name is held by at most one record. */
  ghost predicate UniqueNames<D>(t: Table<D>)
  {
    forall i, j :: 0 <= i < j < |t| ==> t[i].name != t[j].name
  }

  /** `findById`: the record with the given id, if any. */
  function FindById<D(==)>(t: Table<D>, id: Id): (r: Option<Entry<D>>)
    ensures r.None? <==> id !in Ids(t)
    ensures r.Some? ==> r.value in t && r.value.id == id
    ensures r.Some? && UniqueIds(t) ==> forall e :: e in t && e.id == id ==> e == r.value
  {
    if |t| == 0 then None
    else if t[0].id == id then
      assert UniqueIds(t) ==> forall e :: e in t[1..] ==> e.id != id by {
        if UniqueIds(t) {
          forall e | e in t[1..] ensures e.id != id {
            var k :| 0 <= k < |t[1..]| && t[1..][k] == e;
            assert t[k + 1] == e;
          }
        }
      }
      assert forall e :: e in t ==> e == t[0] || e in t[1..] by {
        forall e | e in t ensures e == t[0] || e in t[1..] {
          var k :| 0 <= k < |t| && t[k] == e;
          if k > 0 { assert t[1..][k - 1] == e; }
        }
      }
      Some(t[0])
    else
      assert Ids(t) == {t[0].id} + Ids(t[1..]) by { TailSplit(t); }
      assert UniqueIds(t) ==> UniqueIds(t[1..]);
      FindById(t[1..], id)
  }

  /** `findOne({name})`: the first record holding the name, if any. */
  function FindByName<D(==)>(t: Table<D>, name: string): (r: Option<Entry<D>>)
    ensures r.None? <==> name !in Names(t)
    ensures r.Some? ==> r.value in t && r.value.name == name
    ensures r.Some? && UniqueNames(t) ==> forall e :: e in t && e.name == name ==> e == r.value
  {
    if |t| == 0 then None
    else if t[0].name == name then
      assert UniqueNames(t) ==> forall e :: e in t[1..] ==> e.name != name by {
        if UniqueNames(t) {
          forall e | e in t[1..] ensures e.name != name {
            var k :| 0 <= k < |t[1..]| && t[1..][k] == e;
            assert t[k + 1] == e;
          }
        }
      }
      TailSplit(t);
      Some(t[0])
    else
      TailSplit(t);
      assert UniqueNames(t) ==> UniqueNames(t[1..]);
      FindByName(t[1..], name)
  }

  /** `findOne` answers the earliest record with the name: every record
      before it holds another name. */
  lemma {:induction false} FindByNameFirst<D>(t: Table<D>, name: string)
    requires name in Names(t)
    ensures exists k :: 0 <= k < |t| && t[k] == FindByName(t, name).value
                        && forall j :: 0 <= j < k ==> t[j].name != name
  {
    TailSplit(t);
    if t[0].name != name {
      FindByNameFirst(t[1..], name);
      var k :| 0 <= k < |t[1..]| && t[1..][k] == FindByName(t[1..], name).value
                && forall j :: 0 <= j < k ==> t[1..][j].name != name;
      assert t[k + 1] == FindByName(t, name).value;
      forall j | 0 <= j < k + 1 ensures t[j].name != name {
        if j > 0 { assert t[j] == t[1..][j - 1]; }
      }
    }
  }

  /** `find({name: {$in: names}})`: the records whose name is requested and
      no others. The body filters the table, so the result keeps the table's
      order; the contract states membership, size and uniqueness. */
  function MatchNames<D(==,!new)>(t: Table<D>, names: seq<string>): (r: Table<D>)
    ensures forall e :: e in r <==> e in t && e.name in names
    ensures |r| <= |t|
    ensures UniqueNames(t) ==> UniqueNames(r)
    ensures UniqueIds(t) ==> UniqueIds(r)
  {
    if |t| == 0 then []
    else
      var rest := MatchNames(t[1..], names);
      TailSplit(t);
      if t[0].name in names then
        KeepFirstUnique(t, rest);
        [t[0]] + rest
      else
        assert UniqueNames(t) ==> UniqueNames(t[1..]);
        assert UniqueIds(t) ==> UniqueIds(t[1..]);
        rest
  }

  /** Putting a table's first record in front of records drawn from its
      tail keeps uniqueness. */
  lemma KeepFirstUnique<D>(t: Table<D>, rest: Table<D>)
    requires |t| > 0
    requires forall e :: e in rest ==> e in t[1..]
    requires UniqueNames(t[1..]) ==> UniqueNames(rest)
    requires UniqueIds(t[1..]) ==> UniqueIds(rest)
    ensures UniqueNames(t) ==> UniqueNames([t[0]] + rest)
    ensures UniqueIds(t) ==> UniqueIds([t[0]] + rest)
  {
    if UniqueNames(t) {
      assert UniqueNames(t[1..]);
      forall e | e in rest ensures e.name != t[0].name {
        var k :| 0 <= k < |t[1..]| && t[1..][k] == e;
        assert t[k + 1] == e;
      }
      PrependUnique([t[0]] + rest);
    }
    if UniqueIds(t) {
      assert UniqueIds(t[1..]);
      forall e | e in rest ensures e.id != t[0].id {
        var k :| 0 <= k < |t[1..]| && t[1..][k] == e;
        assert t[k + 1] == e;
      }
      PrependUnique([t[0]] + rest);
    }
  }

  /** One greater than every id in use: the id `create` gives a new record. */
  function NextId<D(==)>(t: Table<D>): (r: Id)
    ensures forall e :: e in t ==> e.id < r
  {
    if |t| == 0 then 0
    else
      var rest := NextId(t[1..]);
      assert forall e :: e in t ==> e == t[0] || e in t[1..] by { TailSplit(t); }
      if t[0].id < rest then rest else t[0].id + 1
  }

  /** `create`: append a record under a fresh id. */
  function Insert<D(==)>(t: Table<D>, name: string, data: D): (r: Table<D>)
    ensures |r| == |t| + 1 && r[..|t|] == t
    ensures r[|t|].name == name && r[|t|].data == data && r[|t|].id !in Ids(t)
    ensures UniqueIds(t) ==> UniqueIds(r)
    ensures UniqueNames(t) && name !in Names(t) ==> UniqueNames(r)
  {
    t + [Entry(NextId(t), name, data)]
  }

  /** `save` after assigning fields: every record with the id takes the new
      name and payload, all others stay as they are. */
  function Overwrite<D(==)>(t: Table<D>, id: Id, name: string, data: D): (r: Table<D>)
    ensures |r| == |t|
    ensures forall i :: 0 <= i < |t| ==> r[i] == (if t[i].id == id then Entry(id, name, data) else t[i])
  {
    if |t| == 0 then []
    else [if t[0].id == id then Entry(id, name, data) else t[0]] + Overwrite(t[1..], id, name, data)
  }

  /** `deleteOne({_id})`: drop the records with the id, keep the rest in order. */
  function Remove<D(==,!new)>(t: Table<D>, id: Id): (r: Table<D>)
    ensures forall e :: e in r <==> e in t && e.id != id
    ensures id !in Ids(t) ==> r == t
  {
    if |t| == 0 then []
    else
      TailSplit(t);
      (if t[0].id == id then [] else [t[0]]) + Remove(t[1..], id)
  }

  /** Deleting keeps ids and names unique. */
  lemma RemoveUnique<D(!new)>(t: Table<D>, id: Id)
    ensures UniqueIds(t) ==> UniqueIds(Remove(t, id))
    ensures UniqueNames(t) ==> UniqueNames(Remove(t, id))
  {
    RemoveUniqueIds(t, id);
    RemoveUniqueNames(t, id);
  }

  lemma {:induction false} RemoveUniqueIds<D(!new)>(t: Table<D>, id: Id)
    ensures UniqueIds(t) ==> UniqueIds(Remove(t, id))
  {
    if |t| > 0 && UniqueIds(t) {
      var rest := Remove(t[1..], id);
      assert UniqueIds(t[1..]);
      RemoveUniqueIds(t[1..], id);
      if t[0].id != id {
        assert Remove(t, id) == [t[0]] + rest;
        forall e | e in rest ensures e.id != t[0].id {
          var k :| 0 <= k < |t[1..]| && t[1..][k] == e;
          assert t[k + 1] == e;
        }
        PrependUnique([t[0]] + rest);
      }
    }
  }

  lemma {:induction false} RemoveUniqueNames<D(!new)>(t: Table<D>, id: Id)
    ensures UniqueNames(t) ==> UniqueNames(Remove(t, id))
  {
    if |t| > 0 && UniqueNames(t) {
      var rest := Remove(t[1..], id);
      assert UniqueNames(t[1..]);
      RemoveUniqueNames(t[1..], id);
      if t[0].id != id {
        assert Remove(t, id) == [t[0]] + rest;
        forall e | e in rest ensures e.name != t[0].name {
          var k :| 0 <= k < |t[1..]| && t[1..][k] == e;
          assert t[k + 1] == e;
        }
        PrependUnique([t[0]] + rest);
      }
    }
  }

  /** Deleting an id that names exactly one record removes exactly one record. */
  lemma {:induction false} RemoveCount<D(!new)>(t: Table<D>, id: Id)
    ensures UniqueIds(t) && id in Ids(t) ==> |Remove(t, id)| == |t| - 1
  {
    if UniqueIds(t) && id in Ids(t) {
      TailSplit(t);
      assert UniqueIds(t[1..]);
      if t[0].id == id {
        assert Remove(t, id) == Remove(t[1..], id) == t[1..];
      } else {
        RemoveCount(t[1..], id);
        assert Remove(t, id) == [t[0]] + Remove(t[1..], id);
      }
    }
  }

  /** Overwriting a record keeps the set of ids and their uniqueness. */
  lemma OverwriteIds<D>(t: Table<D>, id: Id, name: string, data: D)
    ensures Ids(Overwrite(t, id, name, data)) == Ids(t)
    ensures UniqueIds(t) ==> UniqueIds(Overwrite(t, id, name, data))
  {
    var r := Overwrite(t, id, name, data);
    assert forall i :: 0 <= i < |t| ==> r[i].id == t[i].id;
    forall x | x in Ids(t) ensures x in Ids(r) {
      var i :| 0 <= i < |t| && t[i].id == x;
      assert r[i].id == x;
    }
    forall x | x in Ids(r) ensures x in Ids(t) {
      var i :| 0 <= i < |r| && r[i].id == x;
      assert t[i].id == x;
    }
  }

  /** Overwriting a present id: the records with other ids stay, and the
      replacement is the only new record. */
  lemma OverwriteMembers<D>(t: Table<D>, id: Id, name: string, data: D)
    requires id in Ids(t)
    ensures forall e :: e in Overwrite(t, id, name, data) <==> (e in t && e.id != id) || e == Entry(id, name, data)
  {
    var r := Overwrite(t, id, name, data);
    var k :| 0 <= k < |t| && t[k].id == id;
    assert r[k] == Entry(id, name, data);
    forall e | e in r ensures (e in t && e.id != id) || e == Entry(id, name, data) {
      var i :| 0 <= i < |r| && r[i] == e;
    }
    forall e | e in t && e.id != id ensures e in r {
      var i :| 0 <= i < |t| && t[i] == e;
      assert r[i] == e;
    }
  }

  /** Renaming the record at position `k` to a name no other record holds
      keeps names unique, and swaps exactly its old name for the new one. */
  lemma OverwriteNames<D>(t: Table<D>, k: nat, name: string, data: D)
    requires k < |t| && UniqueIds(t) && UniqueNames(t)
    requires forall i :: 0 <= i < |t| && i != k ==> t[i].name != name
    ensures UniqueNames(Overwrite(t, t[k].id, name, data))
    ensures Names(Overwrite(t, t[k].id, name, data)) == Names(t) - {t[k].name} + {name}
  {
    OverwriteAt(t, k, name, data);
    var r := Overwrite(t, t[k].id, name, data);
    OverwriteNamesUnique(t, r, k, name, data);
    OverwriteNameSet(t, r, k, name, data);
  }

  /** With unique ids, overwriting the id at `k` changes position `k` only. */
  lemma OverwriteAt<D>(t: Table<D>, k: nat, name: string, data: D)
    requires k < |t| && UniqueIds(t)
    ensures var r := Overwrite(t, t[k].id, name, data);
      |r| == |t| && r[k] == Entry(t[k].id, name, data) && forall i :: 0 <= i < |t| && i != k ==> r[i] == t[i]
  {
  }

  lemma OverwriteNamesUnique<D>(t: Table<D>, r: Table<D>, k: nat, name: string, data: D)
    requires k < |t| && UniqueNames(t)
    requires forall i :: 0 <= i < |t| && i != k ==> t[i].name != name
    requires |r| == |t| && r[k] == Entry(t[k].id, name, data) && forall i :: 0 <= i < |t| && i != k ==> r[i] == t[i]
    ensures UniqueNames(r)
  {
    forall i, j | 0 <= i < j < |r| ensures r[i].name != r[j].name {
      if i != k && j != k {
        assert t[i].name != t[j].name;
      }
    }
  }

  lemma OverwriteNameSet<D>(t: Table<D>, r: Table<D>, k: nat, name: string, data: D)
    requires k < |t| && UniqueNames(t)
    requires |r| == |t| && r[k] == Entry(t[k].id, name, data) && forall i :: 0 <= i < |t| && i != k ==> r[i] == t[i]
    ensures Names(r) == Names(t) - {t[k].name} + {name}
  {
    var want := Names(t) - {t[k].name} + {name};
    forall x | x in Names(r) ensures x in want {
      var e :| e in r && e.name == x;
      var i :| 0 <= i < |r| && r[i] == e;
      if i != k {
        assert r[i] == t[i] && t[i] in t;
        assert t[i].name != t[k].name;
      }
    }
    forall x | x in want ensures x in Names(r) {
      if x == name {
        assert r[k] in r;
      } else {
        var e :| e in t && e.name == x;
        var i :| 0 <= i < |t| && t[i] == e;
        assert i != k;
        assert r[i] == t[i] && r[i] in r;
      }
    }
  }

  /** The first record of a non-empty table and its tail make up the whole. */
  lemma TailSplit<D>(t: Table<D>)
    requires |t| > 0
    ensures forall e :: e in t <==> e == t[0] || e in t[1..]
    ensures Ids(t) == {t[0].id} + Ids(t[1..])
    ensures Names(t) == {t[0].name} + Names(t[1..])
  {
    assert t == [t[0]] + t[1..];
  }

  /** A head whose name and id the tail does not repeat keeps a table unique. */
  lemma PrependUnique<D>(t: Table<D>)
    requires |t| > 0
    ensures (UniqueNames(t[1..]) && forall e :: e in t[1..] ==> e.name != t[0].name) ==> UniqueNames(t)
    ensures (UniqueIds(t[1..]) && forall e :: e in t[1..] ==> e.id != t[0].id) ==> UniqueIds(t)
  {
    if UniqueNames(t[1..]) && forall e :: e in t[1..] ==> e.name != t[0].name {
      forall i, j | 0 <= i < j < |t| ensures t[i].name != t[j].name {
        assert t[j] == t[1..][j - 1];
        if i > 0 { assert t[i] == t[1..][i - 1]; }
      }
    }
    if UniqueIds(t[1..]) && forall e :: e in t[1..] ==> e.id != t[0].id {
      forall i, j | 0 <= i < j < |t| ensures t[i].id != t[j].id {
        assert t[j] == t[1..][j - 1];
        if i > 0 { assert t[i] == t[1..][i - 1]; }
      }
    }
  }

  /** In a table without repeated names there are as many names as records. */
  lemma {:induction false} UniqueNamesCard<D>(t: Table<D>)
    requires UniqueNames(t)
    ensures |Names(t)| == |t|
  {
    if |t| == 0 {
      assert Names(t) == {};
    } else {
      TailSplit(t);
      assert UniqueNames(t[1..]);
      UniqueNamesCard(t[1..]);
    }
  }

  /** The records a `$in` query finds carry exactly the requested names the
      table knows. */
  lemma MatchNamesNames<D(!new)>(t: Table<D>, names: seq<string>)
    ensures Names(MatchNames(t, names)) == Names(t) * Elements(names)
  {
    var r := MatchNames(t, names);
    forall n | n in Names(t) * Elements(names) ensures n in Names(r) {
      var e :| e in t && e.name == n;
      assert e in r;
    }
  }

  /** In a table without repeated names, a `$in` query finds as many records
      as the request has distinct known names. */
  lemma MatchNamesCard<D(!new)>(t: Table<D>, names: seq<string>)
    requires UniqueNames(t)
    ensures |MatchNames(t, names)| == |Names(t) * Elements(names)|
  {
    UniqueNamesCard(MatchNames(t, names));
    MatchNamesNames(t, names);
  }

  /** The count rule: in a table without repeated names, a `$in` query finds
      one record per requested name exactly when every requested name is
      known and none is requested twice. */
  lemma MatchAll<D(!new)>(t: Table<D>, names: seq<string>)
    ensures UniqueNames(t) ==> |MatchNames(t, names)| <= |names|
    ensures UniqueNames(t) ==>
      (|MatchNames(t, names)| == |names| <==> (forall n :: n in names ==> n in Names(t)) && Distinct(names))
  {
    if UniqueNames(t) {
      var known := Names(t) * Elements(names);
      MatchNamesCard(t, names);
      ElementsCard(names);
      assert known <= Elements(names);
      SubsetCard(known, Elements(names));
      if forall n :: n in names ==> n in Names(t) {
        assert known == Elements(names);
      } else {
        var n :| n in names && n !in Names(t);
        assert known <= Elements(names) - {n};
        SubsetCard(known, Elements(names) - {n});
      }
    }
  }

  lemma SubsetCard<T>(a: set<T>, b: set<T>)
    requires a <= b
    ensures |a| <= |b|
  {
    assert b == a + (b - a);
  }
}
